=== FILE: README.md ===
# JPEGView image-load worker in Dafny

This project models the decision logic of `CImageLoadThread`, the background
worker that loads images in JPEGView. Each work item is either a load request
or a release request.

For a load request the worker does four things:

1. It sniffs the file's format from its first 16 bytes, falling back to the
   file-name extension (`GetImageFormat`).
2. It deletes every cached decoder except the one belonging to that format's
   family (`ProcessRequest`).
3. It runs the format's reader. Each reader has its own fallback chain, its
   own use of the decoder cache, and its own rules for the `OutOfMemory` and
   `ExceptionError` flags (`ProcessRead*Request`).
4. It post-processes a decoded image: it clamps the zoomed size and limits the
   pan offsets (`ProcessImageAfterLoad`, `LimitOffsets`).

A release request deletes the cached decoders that name a given file. The
caller retrieves a result once with the handle `AsyncLoad` returned
(`GetLoadedImage`).

Everything is modelled as immutable data and pure functions. The decoder
cache is a record of five file names, with `""` meaning an empty slot. A
request's result is a `LoadState` (image, `OutOfMemory`, `ExceptionError`).
Each reader returns a `Step`: the new cache, the new state, whether an
exception escaped, and the list of decoder calls it made, in order. Codecs,
GDI+ and the file system are not modelled. They become inputs instead:
- a function from decoder to `Outcome` (decoded, declined, out of memory, threw);
- `FileFacts` (opens, size, allocation, full read, header bytes);
- GDI+ `Bitmap` records;
- the post-load facts (rotation accepted, zoomed size, display buffer produced).

Modules, one per file:
- `Formats`, `Options`: the format enumeration, bytes, `Option`.
- `Sniffer`: `GetImageFormat`. The magic-byte chain is proved equal to a
  first-match rule table.
- `Decoding`: decoders, outcomes, the shared read-the-file prologue, and the
  flag conventions.
- `DecoderCache`: the five slots, `DeleteCached*`, release, and the
  reuse/clear/store protocol.
- `GdiPlus`: the guards and the frame clamp of `ConvertGDIPlusBitmapToJPEGImage`.
- `Readers`: every `ProcessRead*Request`.
- `Geometry`: `LimitOffsets` and the integer part of `ProcessImageAfterLoad`.
- `Requests`: `CRequest`, the 32-bit handle counter, `CImageData` and
  `GetLoadedImage`.
- `Subsequences`: the order-preserving subsequence relation.
- `Worker`: `ProcessRequest`, the reference fallback chains, and whole-item
  properties.

The code behaves as follows:
- Not every exception ends as a reported failure. The BMP, TGA, PSD and DDS
  readers have no catch block, and neither does GDI+ on the file outside the
  JPEG path, so their exceptions leave `ProcessRequest` (`escaped`). The
  WEBP, RAW and `heif::Error` catch blocks discard the image without setting
  `ExceptionError`. The WIC catch block does nothing, so WIC leaves no image
  and no flag.
- Handles are not increasing forever. `InterlockedIncrement` on a 32-bit `int`
  wraps from `INT_MAX` to `INT_MIN`.

## Model

| member | source | states |
|---|---|---|
| Sniffer.Sniff | src/JPEGView/ImageLoadThread.cpp:37-101 | A file that cannot be opened or gives fewer than 2 header bytes is Unknown. A matching magic test decides the format. With no match, a known extension decides. |
| Sniffer.ChainMatchesTable | src/JPEGView/ImageLoadThread.cpp:49-84 | The else-if chain classifies every header exactly as a first-match table of rules in the order BMP, JPEG, PNG, GIF87a/89a, RIFF+WEBP, JXL, ftyp (brands avi/hei/hev/crx), qoif, 8BPS, "DDS ". An ftyp box with an unknown brand stops the chain undecided. |
| Sniffer.ExtensionBeforeLateRules | src/JPEGView/ImageLoadThread.cpp:86-101 | With no magic match, a known extension always wins. Only without one does a bare ftyp box give AVIF, a TIFF byte-order mark give TIFF, and anything else give Unknown. |
| Sniffer.TiffExactly | src/JPEGView/ImageLoadThread.cpp:86-101 | TIFF is the verdict if and only if no magic test matched and either the extension says TIFF, or there is no known extension, no ftyp box and a TIFF byte-order mark. |
| Sniffer.RawInTiffContainer | src/JPEGView/ImageLoadThread.cpp:94-99 | A CR2 header is camera RAW when its extension says so, and TIFF when there is no known extension. |
| Sniffer.FtypShadowsQoi | src/JPEGView/ImageLoadThread.cpp:65-79 | A header starting "qoif" with "ftyp" at offset 4 never reaches the QOI test; without an extension it becomes AVIF. |
| Sniffer.MagicTag | src/JPEGView/ImageLoadThread.cpp:49-84 | The magic chain decides nothing on fewer than 2 bytes, never yields TIFF, WIC, TGA or Unknown, gives BMP for a "BM" start, and reaches QOI, PSD and DDS only without an ftyp box at offset 4. |
| Sniffer.Classify | src/JPEGView/ImageLoadThread.cpp:85-101 | A magic match decides the format. Otherwise a known extension does. The verdict is Unknown only when both fail, and TIFF only from the extension or a byte-order mark. |
| Sniffer.SniffAsWritten | src/JPEGView/ImageLoadThread.cpp:37-101 | GetImageFormat as written: the tests read the whole 16-byte stack buffer, including bytes the short read did not fill. |
| Sniffer.LeftoverIrrelevantForLongFiles | src/JPEGView/ImageLoadThread.cpp:42-63 | Once 12 bytes are read, the stale buffer bytes never matter, and the as-written and corrected sniffers agree on every input. |
| Sniffer.NeutralBufferAgrees | src/JPEGView/ImageLoadThread.cpp:42-101 | When the stale stack buffer holds 0x01 bytes, the program's classification equals the one that reads only the bytes read, for every file and name. |
| Sniffer.ShortFileReadsLeftover | src/JPEGView/ImageLoadThread.cpp:42-61 | A 4-byte file "RIFF" is WEBP as written when "WEBP" sits stale at bytes 8..11, and Unknown when only the bytes read count. |
| Decoding.LoadFile | src/JPEGView/ImageLoadThread.cpp:485-507 | The read-into-memory prologue: not opened, over the ceiling (the file is never read), no buffer, short read, or loaded, each under exactly its condition. |
| Decoding.Assign | src/JPEGView/ImageLoadThread.cpp:962-967 | A reader that writes the request's OutOfMemory by reference: the image is set exactly on success and the flag is true exactly on an out-of-memory outcome. |
| Decoding.Raise | src/JPEGView/ImageLoadThread.cpp:569-586 | A reader with a local flag that is copied over only when true: the flag is raised on out-of-memory and never cleared. |
| Decoding.Caught | src/JPEGView/ImageLoadThread.cpp:558-562 | A catch block discards the image, keeps OutOfMemory, and sets ExceptionError only when that block sets it. |
| DecoderCache.Clear | src/JPEGView/ImageLoadThread.cpp:445-480 | DeleteCached* empties its own slot and leaves the other four unchanged. |
| DecoderCache.KeepOnly | src/JPEGView/ImageLoadThread.cpp:296-407 | The per-format invalidation empties every slot except the kept one, which keeps its name. |
| DecoderCache.Release | src/JPEGView/ImageLoadThread.cpp:273-291 | A release request empties exactly the slots whose name equals the given name and leaves the rest unchanged. |
| DecoderCache.ReleaseIdempotent | src/JPEGView/ImageLoadThread.cpp:273-291 | Releasing the same name twice is the same as releasing it once. |
| DecoderCache.ReleaseUncached | src/JPEGView/ImageLoadThread.cpp:273-291 | Releasing a name that no slot holds changes nothing. |
| DecoderCache.ReleaseKeepsAtMostOneLive | src/JPEGView/ImageLoadThread.cpp:273-291 | Release never makes a slot live, so at most one live family stays at most one. |
| DecoderCache.Check | src/JPEGView/ImageLoadThread.cpp:588-598 | The cache check keeps the slot when it names the requested file (reuse) and empties it otherwise. |
| DecoderCache.Settle | src/JPEGView/ImageLoadThread.cpp:637-649 | After the decode call: an animated result stores the requested name, a failed decode empties the slot, and a still image or a throw leaves the checked slot. |
| DecoderCache.ProtocolOnlyStoresRequested | src/JPEGView/ImageLoadThread.cpp:588-659 | After the check and the decode, a family slot is empty or names the requested file, never a third file. |
| GdiPlus.SizeGuard | src/JPEGView/ImageLoadThread.cpp:133-141 | A dimension over the limit is refused without OutOfMemory. Within it, a pixel count over the limit is refused with OutOfMemory. Otherwise it passes. Each case is an if-and-only-if. |
| GdiPlus.ClampFrame | src/JPEGView/ImageLoadThread.cpp:150-151 | The frame index lands in [0, frameCount-1], or 0 when the count is not positive. An index already in range is kept. |
| GdiPlus.ClampFrameIdempotent | src/JPEGView/ImageLoadThread.cpp:151 | Clamping an already clamped frame index changes nothing. |
| GdiPlus.Convert | src/JPEGView/ImageLoadThread.cpp:122-216 | An image comes exactly from an Ok bitmap that passes the guards, survives the alpha blit, locks and is copied; it shows the clamped frame. A failed status yields NULL, with OutOfMemory exactly for the OutOfMemory status. The animated-GIF flag is exactly "guards passed, GIF, more than one frame". |
| GdiPlus.ConvertOutOfMemoryCauses | src/JPEGView/ImageLoadThread.cpp:127-206 | OutOfMemory is reported exactly for: the OutOfMemory status, too many pixels, a failed alpha blit, or a LockBits overflow. |
| Readers.FromGdi | src/JPEGView/ImageLoadThread.cpp:516-518 | A GDI+ result is written as the image, with OutOfMemory only when there is no image. |
| Readers.ReadGdiFile | src/JPEGView/ImageLoadThread.cpp:1055-1073 | GDI+ on the file reuses the cached bitmap when the slot names the file. The bitmap stays cached exactly for an animated GIF. A throwing constructor leaves the slot empty and escapes. An empty file name matches the empty cached name and hands a NULL bitmap to the conversion; that dereference is modelled as an escape too. Only the GDI+ slot changes. |
| Readers.FamilyBuffer | src/JPEGView/ImageLoadThread.cpp:600-626 | A cached-family reader reads nothing when its slot names the file, and otherwise runs the read prologue against its ceiling. |
| Readers.RunFamily | src/JPEGView/ImageLoadThread.cpp:588-659 | The shared family step. It follows the cache protocol, returns early on a failed read (OutOfMemory set exactly for the over-ceiling and no-buffer cases), makes one decode call, and catches a throw as its reader's catch block does. |
| Readers.ReadWebp | src/JPEGView/ImageLoadThread.cpp:588-659 | The WEBP reader calls its decoder exactly when its buffer is available, and has an image then exactly when the decoder delivered one. It changes only its own slot, leaving it empty or naming the file, and never sets ExceptionError. |
| Readers.ReadJxl | src/JPEGView/ImageLoadThread.cpp:759-827 | The JXL reader calls its decoder exactly when its buffer is available, and has an image then exactly when the decoder delivered one. It catches every throw. It sets ExceptionError on a throw from the decoder and leaves it unchanged otherwise. It changes only its own slot, leaving it empty or naming the file. |
| Readers.ReadHeif | src/JPEGView/ImageLoadThread.cpp:908-960 | The HEIF reader decodes only after a full read. On a throw the image is dropped, and ExceptionError is set only for exceptions other than heif::Error. |
| Readers.ReadAvif | src/JPEGView/ImageLoadThread.cpp:831-904 | The AVIF reader calls nothing, AVIF alone, or AVIF then HEIF, and its image comes from the last call. It changes only its own slot, leaving it empty or naming the file. A throw in the AVIF try block sets ExceptionError, which the HEIF fallback never clears. The flag is set only after such a throw or a HEIF throw other than heif::Error. |
| Readers.ReadPng | src/JPEGView/ImageLoadThread.cpp:662-755 | With the buffer available, libpng runs exactly when the decoder is reused, GDI+ is not preferred, or the file needs libpng. GDI+ on the buffer runs exactly when a stream can be made and libpng was skipped, declined or ran out of memory. Over the ceiling or without memory, only OutOfMemory is set. The image comes from the last call. Only its own slot changes: it names the file after an animated libpng decode, is empty after a libpng decline or out-of-memory and whenever libpng did not run, and is otherwise the checked slot. A throw from libpng or from GDI+ on the buffer drops the image and sets ExceptionError, and the flag changes only that way. |
| Readers.PngFollowsProtocol | src/JPEGView/ImageLoadThread.cpp:662-755 | Whenever libpng runs, the PNG slot after the reader is exactly the shared cache protocol (check, then settle on libpng's outcome). |
| Readers.JpegTurbo | src/JPEGView/ImageLoadThread.cpp:529-555 | TurboJPEG success sets the image and does not reset OutOfMemory. Out of memory stops. A decline without out-of-memory goes on to GDI+ on the file. The image comes from the last call. A throw, including one from GDI+ on the file, drops the image and sets ExceptionError. Only the GDI+ slot changes. |
| Readers.ReadJpeg | src/JPEGView/ImageLoadThread.cpp:484-566 | The JPEG reader's calls are one of six orders drawn from GDI+ stream, TurboJPEG, GDI+ file. No GDI+ stream call is made without the preference. The image comes from the last call, and only the GDI+ slot changes. A file that does not open or reads short calls nothing and changes nothing. Over the ceiling or without memory, only OutOfMemory is set. A throw from TurboJPEG or from GDI+ on the buffer drops the image and sets ExceptionError, and the flag changes only that way. |
| Readers.ReadBmp | src/JPEGView/ImageLoadThread.cpp:569-578 | A BMP out-of-memory result sets the flag and skips GDI+. A NULL result without it falls back to GDI+ on the file. ExceptionError is never set. |
| Readers.ReadTga | src/JPEGView/ImageLoadThread.cpp:580-586 | One TGA attempt; a throw escapes; ExceptionError is never set. |
| Readers.ReadPsd | src/JPEGView/ImageLoadThread.cpp:962-967 | The PSD thumbnail is tried exactly when the main read returned NULL without out-of-memory. |
| Readers.ReadQoi | src/JPEGView/ImageLoadThread.cpp:971-1014 | QOI decodes only after a full read against the PNG ceiling. Before that, a file that does not open or reads short changes nothing, and an over-ceiling file or failed allocation sets only OutOfMemory. After it, the image is the decoder's exactly when it decoded, and OutOfMemory is exactly the decoder's report. A throw drops the image, keeps OutOfMemory and sets ExceptionError. |
| Readers.ReadWic | src/JPEGView/ImageLoadThread.cpp:1095-1108 | WIC sets neither OutOfMemory nor ExceptionError, whatever happens. |
| Readers.ReadDds | src/JPEGView/ImageLoadThread.cpp:1075-1079 | DDS leaves both flags untouched, and only the DDS reader is called. |
| Readers.TryInOrder | src/JPEGView/ImageLoadThread.cpp:1022-1033 | The libraw block tries its attempts in order until one decodes. Every earlier attempt declined or ran out of memory. A throw ends the block. The image and the flag come from the last attempt. |
| Readers.ReadRaw | src/JPEGView/ImageLoadThread.cpp:1016-1053 | The RAW reader is the libraw block, then dcraw when there is still no image and the mode is not 1 or 2. It never sets ExceptionError. |
| Readers.RawOrderSplits | src/JPEGView/ImageLoadThread.cpp:1022-1042 | For each DisplayFullSizeRAW value, the order in which cpp:1025-1044 makes the calls is the libraw block's attempts followed by the closing dcraw attempt. |
| Readers.RawFollowsOrder | src/JPEGView/ImageLoadThread.cpp:1016-1053 | When nothing throws, the RAW reader walks the order in which cpp:1025-1044 makes the calls (0: full, dcraw; 1: half; 2: full, dcraw, half; 3: half, full, dcraw; other: half, dcraw) up to the first decoded image. Without an image every attempt was made. OutOfMemory reflects the last attempt. |
| Readers.ReuseIgnoresFile | src/JPEGView/ImageLoadThread.cpp:600-606 | When its slot names the file, the WEBP, JXL or PNG reader behaves the same whatever the file on disk is. |
| Readers.OverCeilingNeverDecodes | src/JPEGView/ImageLoadThread.cpp:495-499 | A file over the JPEG, PNG/QOI, HEIF/AVIF, WEBP or JXL ceiling gets no decoder call, and OutOfMemory is set with nothing else changed. |
| Readers.AvifFallsBackToHeif | src/JPEGView/ImageLoadThread.cpp:893-903 | HEIF is called exactly when the AVIF read was full, AVIF did not decode, and HEIF's own read is full. A short AVIF read ends with nothing decoded. |
| Readers.JpegTurboAfterGdiOutOfMemory | src/JPEGView/ImageLoadThread.cpp:509-528 | With GDI+ preferred, TurboJPEG runs exactly when the GDI+ attempt ended with OutOfMemory, including a stream that could not be created. Without the preference, TurboJPEG runs first. |
| Geometry.HalfTruncated | src/JPEGView/ImageLoadThread.cpp:437-439 | C's `/2` on int rounds toward zero for negative values. |
| Geometry.MaxOffset | src/JPEGView/ImageLoadThread.cpp:437-440 | The offset bound is half the excess of the image over the window, or 0 when there is no excess. |
| Geometry.ClampOffset | src/JPEGView/ImageLoadThread.cpp:441-442 | An offset is pulled into [-m, m], unchanged when already inside and moved to the nearer end otherwise. |
| Geometry.LimitOffsets | src/JPEGView/ImageLoadThread.cpp:436-443 | Both offsets end within their axis bounds, and in-range offsets are unchanged. |
| Geometry.LimitOffsetsIdempotent | src/JPEGView/ImageLoadThread.cpp:436-443 | Limiting limited offsets again changes nothing. |
| Geometry.ClampSize | src/JPEGView/ImageLoadThread.cpp:1136-1137 | Each axis of the zoomed size lands in [1, 65535], unchanged inside and at the nearer end outside. |
| Geometry.Clip | src/JPEGView/ImageLoadThread.cpp:1140-1141 | The clipped size is the per-axis smaller of target and zoomed size. |
| Geometry.TargetBoundsEqualClippedBounds | src/JPEGView/ImageLoadThread.cpp:1143 | Limiting against the target size, as the code does, gives the same offsets as limiting against the clipped size. |
| Geometry.Window | src/JPEGView/ImageLoadThread.cpp:1136-1141 | The display window fits the target and is at least 1 on each axis of a positive target. |
| Geometry.ProcessAfterLoad | src/JPEGView/ImageLoadThread.cpp:1110-1149 | The parameters are first rewritten for the file name. Post-load processing then succeeds exactly when the rotation is accepted and either the rewritten parameters turn processing off or the display buffer is produced. The rewritten parameters are written back unchanged when rotation fails or processing is off; otherwise only their offsets change, to lie within the window bounds. |
| Requests.Wrap32 | src/JPEGView/ImageLoadThread.h:64 | The 32-bit wrap is the identity inside the int range and differs from its input by a multiple of 2^32. |
| Requests.NextHandle | src/JPEGView/ImageLoadThread.h:64 | A new handle is the counter plus one below INT_MAX, and INT_MIN after INT_MAX. |
| Requests.GetCurHandleValue | src/JPEGView/ImageLoadThread.h:52 | The current handle value is the handle of the latest request, or the initial 0 before any request. |
| Requests.AsyncLoad | src/JPEGView/ImageLoadThread.cpp:234-240 | A new request takes the next handle, which becomes the counter (GetCurHandleValue). It has no image, both flags false, and is appended with nothing else changed. |
| Requests.WrapStep | src/JPEGView/ImageLoadThread.h:64 | Incrementing a wrapped counter equals wrapping the unwrapped count. |
| Requests.AsyncLoadKeepsIssued | src/JPEGView/ImageLoadThread.h:59-68 | Starting from counter 0, the k-th request holds the k-th increment's handle and the counter is the last one issued. Every AsyncLoad preserves this. |
| Requests.WrapInjective | src/JPEGView/ImageLoadThread.h:64 | Counts less than 2^32 apart never wrap to the same handle. |
| Requests.IssuedHandlesDistinct | src/JPEGView/ImageLoadThread.h:64 | Up to 2^32 issued requests have pairwise distinct handles. |
| Requests.HandlesIncreaseUntilWrap | src/JPEGView/ImageLoadThread.h:64 | Up to INT_MAX issued requests have strictly increasing handles. |
| Requests.HandleAfterIntMax | src/JPEGView/ImageLoadThread.h:64 | The handle after INT_MAX is INT_MIN. |
| Requests.FirstDeliverable | src/JPEGView/ImageLoadThread.cpp:247-250 | Finds the first processed, not yet retrieved request with the handle, and reports that none exists when none does. |
| Requests.GetLoadedImage | src/JPEGView/ImageLoadThread.cpp:242-260 | The linear search returns the image and both flags of the first deliverable request and marks only that request as retrieved. With none, it returns NULL with both flags false and changes nothing. It agrees with its functional form `Retrieve`. |
| Requests.Retrieve | src/JPEGView/ImageLoadThread.cpp:242-260 | The functional form of the retrieval keeps the handle counter and the number of requests. |
| Requests.RetrieveAtMostOnce | src/JPEGView/ImageLoadThread.h:43-46 | With distinct handles, a second retrieval with the same handle returns NULL with both flags false. |
| Requests.RetrieveOnlyMarks | src/JPEGView/ImageLoadThread.cpp:242-260 | Retrieval changes nothing but one deleted mark, and only on a deliverable request. |
| Worker.InvalidationKeepsOwnFamily | src/JPEGView/ImageLoadThread.cpp:296-407 | Before reading, only the format's own slot may be live: WEBP, PNG, JXL and AVIF keep theirs, GIF/TIFF/Unknown keep the GDI+ bitmap, and every other format clears all five. |
| Worker.KeptSlot | src/JPEGView/ImageLoadThread.cpp:296-407 | The formats that keep a cached decoder are exactly WEBP, PNG, JXL, AVIF (their own slot) and GIF, TIFF, Unknown (the GDI+ bitmap). Every other format keeps none. |
| Worker.Dispatch | src/JPEGView/ImageLoadThread.cpp:296-407 | The reader for a format never touches a slot outside the format's family. A family slot ends empty, naming the requested file, or unchanged when the format keeps no slot. Only the BMP, TGA, PSD, DDS and GDI+-on-file readers let an exception escape, and an escape leaves a request that had no image without one. Only the JPEG, PNG, JXL, AVIF, HEIF and QOI readers change ExceptionError. |
| Worker.ReadStage | src/JPEGView/ImageLoadThread.cpp:293-407 | After sniffing, invalidating and running the reader, every live slot names the requested file within its format's family. Only the BMP, TGA, PSD, DDS and GDI+-on-file readers let an exception escape, and only the JPEG, PNG, JXL, AVIF, HEIF and QOI readers change ExceptionError. For a request without an image, the calls follow the format's chain. |
| Worker.ProcessLoad | src/JPEGView/ImageLoadThread.cpp:293-416 | A load keeps the request's name, frame, handle and marks. Afterwards every live slot names the loaded file and belongs to its format's family, so at most one family is live. Without an escape, the request holds an image exactly when the reader decoded one and post-load processing succeeded. A failed post-load processing sets OutOfMemory, and the parameters (rewritten for the file name, then offset-limited) change only after a successful decode. Escapes and ExceptionError come only from the reader lists above. For a request without an image, the calls follow the format's chain and the image comes from the last call. |
| Worker.AfterRead | src/JPEGView/ImageLoadThread.cpp:408-416 | After the reader, the request keeps its identity. Without an escape it holds an image exactly when the reader produced one and post-load processing succeeded. A failed post-load processing sets OutOfMemory. The parameters change only when post-load processing ran, and ExceptionError is the reader's. |
| Worker.LiveSlotsAreOwn | src/JPEGView/ImageLoadThread.cpp:296-407 | Invalidation followed by a reader that stays in its family leaves only slots naming the requested file, all in that family. |
| Worker.ProcessItem | src/JPEGView/ImageLoadThread.cpp:272-291 | A release item itself is unchanged. It empties exactly the slots naming its file and keeps at most one live family at most one. A load item comes back processed with its name, frame, handle and deleted mark. Afterwards at most one family is live and every live slot names its file. |
| Worker.CallsFollowChain | src/JPEGView/ImageLoadThread.cpp:484-1108 | For a request without an image, every format's reader calls decoders in the order of its fallback chain, possibly skipping some, and a delivered image comes from the last decoder called. |

## Left out

- File I/O, memory allocation and every codec (TurboJPEG, libpng, libwebp, libjxl, libavif, libheif, libraw, dcraw, WIC, GDI+, DirectXTex) are inputs: decode outcomes, `FileFacts` and GDI+ `Bitmap` records. A file read twice gives the same result both times.
- Pixel work is not modelled: alpha premultiplication, `ConvertGdiplus32bppRGB`, EXIF and comment extraction, file hashes, load timing, and frame-delay lookup (including its unchecked index into the delay table). It lives in helpers outside this model and decides nothing modelled here.
- The zoom computation (the double arithmetic at lines 1127-1134 and `Helpers::GetImageRect`) is not modelled. The zoomed size is an input.
- `SetFileDependentProcessParams`, `VerifyRotation`, `ConvertOffset` and `GetDIB` belong to `CJPEGImage`, which is not part of this model. The first appears as the arbitrary parameter rewrite `adjust` of `AfterLoadFacts`, the others as its booleans.
- The extension lookup `Helpers::GetImageFormat` is not part of this model, so it is a parameter (`string -> Format`).
- The work thread (`CWorkThread`) is not part of this model: queue, mutex, FIFO order, removal of retrieved requests, `PostMessage`, event signalling, and what it does with an exception that leaves `ProcessRequest`. A load item is marked processed after the handler returns. The request list holds load requests only.
- `InterlockedIncrement` atomicity and `SetErrorMode` crash isolation are concurrency and operating-system plumbing.
- The WINXP build variant is not modelled; only the default build is.
- The DDS and TGA reader internals are not modelled. The DDS reader never writes its out-of-memory parameter, so a DDS out-of-memory outcome sets no flag.
- Decoding.Assign: the by-reference readers (WEBP, PNG, JXL, AVIF, HEIF, QOI, PSD, and each libraw/dcraw attempt) are assumed to write their flag on every return, true exactly on out-of-memory. Their internals are not part of this model.
- Readers.ReadGdiFile: the NULL dereference an empty file name causes is an access violation, not a C++ exception. Whether a `catch (...)` sees it depends on the compiler's exception model, which is not part of this model. It is treated as an exception: it escapes outside the JPEG path, and the JPEG reader's catch block catches it.
- DecoderCache.Release: file names are compared literally, as `CString` does. An empty requested name equals an empty slot, and that edge is not treated specially.
- GdiPlus.SizeGuard: the pixel count is compared exactly. The source compares a double product of two unsigned widths, which is exact for every size that passes the dimension guard as long as MAX_IMAGE_DIMENSION is at most 2^26. That constant is not part of this model, and the limits are parameters.
- Geometry.LimitOffsets: `imageSize - clippingSize` is computed without 32-bit overflow. The image size is clamped to [1, 65535], but the clipping size is the unclamped target width and height (line 1143), so the subtraction overflows only for a target dimension below INT_MIN + 65536, which the model does not treat specially. The negated bound lies in [0, INT_MAX] and cannot overflow.
- Requests.AsyncLoad: `m_curHandle` is a static, process-wide counter (ImageLoadThread.h:93) shared by every `CImageLoadThread`; the model keeps one counter per `Store`, which matches a program with a single load thread.
- Worker.FormatOf: classifies as the program does when the stack buffer holds 0x01 bytes (Sniffer.NeutralBufferAgrees); other stale contents are the finding below.
- Requests.GetLoadedImage: the cast of every list entry to `CRequest` is not modelled, because release requests never appear in the modelled list.

## Findings

| source | as written | input that shows it | evidently intended | confidence | as-written member | corrected member |
|---|---|---|---|---|---|---|
| src/JPEGView/ImageLoadThread.cpp:42-63 | `header[16]` is not initialised and `fread` may fill fewer bytes. Once 2 bytes are read, the magic tests read up to byte 11 whatever was read. | A 4-byte file "RIFF", with stale "WEBP" at bytes 8..11 of the stack buffer, is classified WEBP. | Tests that reach past the bytes read should fail, so a file shorter than the signature matches nothing. | not executed | Sniffer.SniffAsWritten, Sniffer.ShortFileReadsLeftover | Sniffer.Sniff, Sniffer.LeftoverIrrelevantForLongFiles |

=== FILE: cache.dfy ===
/** The decoder cache: five slots, each holding the name of the file whose
    decoder (or GDI+ bitmap) is kept open, or "" when empty. */
module DecoderCache {
  import opened Options
  import opened Decoding

  /** The slots: the GDI+ bitmap (m_sLastFileName) and the WEBP, PNG, JXL and
      AVIF decoders (m_sLast*FileName). */
  datatype Slot = GdiBitmap | WebpSlot | PngSlot | JxlSlot | AvifSlot

  datatype Caches = Caches(gdi: string, webp: string, png: string, jxl: string, avif: string)

  const EMPTY := Caches("", "", "", "", "")

  function Get(c: Caches, s: Slot): string {
    match s
    case GdiBitmap => c.gdi
    case WebpSlot => c.webp
    case PngSlot => c.png
    case JxlSlot => c.jxl
    case AvifSlot => c.avif
  }

  /** The DeleteCached* operation for slot `s`. */
  function Clear(c: Caches, s: Slot): (r: Caches)
    ensures Get(r, s) == ""
    ensures forall t :: t != s ==> Get(r, t) == Get(c, t)
  {
    match s
    case GdiBitmap => c.(gdi := "")
    case WebpSlot => c.(webp := "")
    case PngSlot => c.(png := "")
    case JxlSlot => c.(jxl := "")
    case AvifSlot => c.(avif := "")
  }

  /** Empties every slot except `keep`. */
  function KeepOnly(c: Caches, keep: Option<Slot>): (r: Caches)
    ensures forall s :: Get(r, s) == (if keep == Some(s) then Get(c, s) else "")
  {
    Caches(
      if keep == Some(GdiBitmap) then c.gdi else "",
      if keep == Some(WebpSlot) then c.webp else "",
      if keep == Some(PngSlot) then c.png else "",
      if keep == Some(JxlSlot) then c.jxl else "",
      if keep == Some(AvifSlot) then c.avif else "")
  }

  /** The release request: each slot whose stored name equals `name` is
      deleted, one comparison per slot. */
  function Release(c: Caches, name: string): (r: Caches)
    ensures forall s :: Get(r, s) == (if Get(c, s) == name then "" else Get(c, s))
  {
    var c1 := if name == c.gdi then Clear(c, GdiBitmap) else c;
    var c2 := if name == c1.webp then Clear(c1, WebpSlot) else c1;
    var c3 := if name == c2.png then Clear(c2, PngSlot) else c2;
    var c4 := if name == c3.jxl then Clear(c3, JxlSlot) else c3;
    if name == c4.avif then Clear(c4, AvifSlot) else c4
  }

  /** Only one family holds a live decoder. */
  predicate AtMostOneLive(c: Caches) {
    forall s, t :: Get(c, s) != "" && Get(c, t) != "" ==> s == t
  }

  lemma ReleaseIdempotent(c: Caches, name: string)
    ensures Release(Release(c, name), name) == Release(c, name)
  {
    var r := Release(c, name);
    var rr := Release(r, name);
    assert forall s :: Get(rr, s) == Get(r, s);
    assert rr.gdi == Get(rr, GdiBitmap) && r.gdi == Get(r, GdiBitmap);
    assert rr.webp == Get(rr, WebpSlot) && r.webp == Get(r, WebpSlot);
    assert rr.png == Get(rr, PngSlot) && r.png == Get(r, PngSlot);
    assert rr.jxl == Get(rr, JxlSlot) && r.jxl == Get(r, JxlSlot);
    assert rr.avif == Get(rr, AvifSlot) && r.avif == Get(r, AvifSlot);
  }

  /** Releasing a name no slot holds changes nothing. */
  lemma ReleaseUncached(c: Caches, name: string)
    requires forall s :: Get(c, s) != name
    ensures Release(c, name) == c
  {
    var r := Release(c, name);
    assert r.gdi == Get(r, GdiBitmap) && r.webp == Get(r, WebpSlot) && r.png == Get(r, PngSlot);
    assert r.jxl == Get(r, JxlSlot) && r.avif == Get(r, AvifSlot);
  }

  /** Release never makes a slot live, so it keeps at most one family live. */
  lemma ReleaseKeepsAtMostOneLive(c: Caches, name: string)
    requires AtMostOneLive(c)
    ensures AtMostOneLive(Release(c, name))
  {
  }

  // ---------------------------------------------------------------------------
  // The reuse/clear/store protocol of the WEBP, PNG, JXL and AVIF readers.

  /** The slot after the cache check: kept when it names the requested file
      (the cached decoder is reused), emptied otherwise. */
  function Check(cached: string, name: string): (slot: string)
    ensures slot == "" || slot == name
    ensures name == cached ==> slot == cached
    ensures name != cached ==> slot == ""
  {
    if name == cached then cached else ""
  }

  /** The slot after the decode call: an animated result stores the name,
      a failed decode empties the slot, a throw leaves the checked slot as it
      was, and a still image leaves it as well. */
  function Settle(checked: string, name: string, o: Outcome): (slot: string)
    ensures o == Decoded(true) ==> slot == name
    ensures o.Declined? || o.OutOfMemory? ==> slot == ""
    ensures o == Decoded(false) || o.Threw? ==> slot == checked
  {
    match o
    case Decoded(animated) => if animated then name else checked
    case Threw(_) => checked
    case _ => ""
  }

  /** After check and settle, the slot is empty or names the requested file. */
  lemma {:induction false} ProtocolOnlyStoresRequested(cached: string, name: string, o: Outcome)
    ensures var s := Settle(Check(cached, name), name, o); s == "" || s == name
  {
  }
}

=== FILE: decoding.dfy ===
/** Abstract decoders: what each codec call can report, the file facts the
    readers consult, and the per-request load state the readers write. */
module Decoding {
  import opened Options
  import Formats

  /** Every decode attempt the load worker can make. `GdiStream` is GDI+ on an
      in-memory copy of the file, `GdiFile` is GDI+ opening the file itself.
      `LibRawFull` and `LibRawHalf` are `RawReader::ReadImage` called with its
      third argument true and false: the reader passes `fullsize == 2` as that
      argument on its first call and `fullsize == 0 || fullsize == 3` on its
      last (ImageLoadThread.cpp:1026, 1032). The names take that argument to
      mean full size; RawReader itself is not part of this model. */
  datatype Decoder =
    | TurboJpeg | GdiStream | GdiFile | BmpReader | TgaReader
    | WebpReader | PngReader | JxlReader | AvifReader | HeifReader
    | QoiReader | PsdImage | PsdThumb | LibRawFull | LibRawHalf | Dcraw
    | WicLoader | DdsReader

  /** What one codec call reports. `Decoded` means usable pixels (including
      any pixel-format check the caller makes on them); `animated` is the
      codec's has-animation output. `Threw` is an exception, and
      `libraryError` marks the codec's own error type (heif::Error). */
  datatype Outcome = Decoded(animated: bool) | Declined | OutOfMemory | Threw(libraryError: bool)

  /** A decoded image, identified by the decoder that produced it. */
  datatype Image = Image(decoder: Decoder)

  /** The file as the readers see it through CreateFile, GetFileSize, the
      buffer allocation and ReadFile. `header` is the start of the file. */
  datatype FileFacts = FileFacts(opens: bool, size: int, allocates: bool, readsFully: bool, header: seq<Formats.byte>)

  /** How far reading the whole file into memory gets. */
  datatype Buffer = NotOpened | TooLarge | NoMemory | ShortRead | Loaded

  /** Open, size-check against `cap`, allocate and read: the prologue every
      buffered reader shares. A file over the cap is never read. */
  function LoadFile(file: FileFacts, cap: int): (b: Buffer)
    ensures b == NotOpened <==> !file.opens
    ensures b == TooLarge <==> file.opens && file.size > cap
    ensures b == Loaded <==> file.opens && file.size <= cap && file.allocates && file.readsFully
    ensures b == NoMemory ==> !file.allocates
    ensures b == ShortRead ==> !file.readsFully
  {
    if !file.opens then NotOpened
    else if file.size > cap then TooLarge
    else if !file.allocates then NoMemory
    else if !file.readsFully then ShortRead
    else Loaded
  }

  /** The request's result fields: Image, OutOfMemory, ExceptionError. */
  datatype LoadState = LoadState(image: Option<Image>, outOfMemory: bool, exceptionError: bool)

  /** The state of a freshly constructed request. */
  const FRESH := LoadState(None, false, false)

  /** A reader whose result and OutOfMemory flag are written into the
      request: the image is set exactly on success and the flag ends up true
      exactly on an OutOfMemory outcome. (Readers that leave the image field
      alone on failure behave the same, since a request reaches its readers
      with no image.) A throwing reader is handled by a catch block instead. */
  function Assign(st: LoadState, d: Decoder, o: Outcome): (r: LoadState)
    requires !o.Threw?
    ensures r.outOfMemory <==> o == OutOfMemory
    ensures r.image.Some? <==> o.Decoded?
    ensures o.Decoded? ==> r.image == Some(Image(d))
    ensures r.exceptionError == st.exceptionError
  {
    st.(image := if o.Decoded? then Some(Image(d)) else None, outOfMemory := o == OutOfMemory)
  }

  /** A reader that reports OutOfMemory through a local flag, which the
      caller only ever raises. */
  function Raise(st: LoadState, d: Decoder, o: Outcome): (r: LoadState)
    requires !o.Threw?
    ensures r.outOfMemory <==> st.outOfMemory || o == OutOfMemory
    ensures r.image.Some? <==> o.Decoded?
    ensures o.Decoded? ==> r.image == Some(Image(d))
    ensures r.exceptionError == st.exceptionError
  {
    st.(image := if o.Decoded? then Some(Image(d)) else None, outOfMemory := st.outOfMemory || o == OutOfMemory)
  }

  /** A catch block: the image is discarded, and ExceptionError is set when
      the block sets it (`flags`). OutOfMemory is left as it was. */
  function Caught(st: LoadState, flags: bool): (r: LoadState)
    ensures r.image.None? && r.outOfMemory == st.outOfMemory
    ensures r.exceptionError <==> st.exceptionError || flags
  {
    st.(image := None, exceptionError := st.exceptionError || flags)
  }
}

=== FILE: formats.dfy ===
/** Bytes and the image-format tags the load worker distinguishes. */
module Formats {

  newtype byte = x: int | 0 <= x < 256

  /** The members of EImageFormat that the load worker's logic names.
      `Unknown` is IF_Unknown; every tag without a case of its own in the
      dispatcher (GIF, TIFF, Unknown) goes to the GDI+ default branch. */
  datatype Format =
    | JPEG | WindowsBMP | PNG | GIF | TIFF | WIC | WEBP | JXL | AVIF | HEIF
    | QOI | PSD | CameraRAW | TGA | DDS | Unknown
}

=== FILE: gdiplus.dfy ===
/** The integer logic of converting a GDI+ bitmap into an image
    (ConvertGDIPlusBitmapToJPEGImage): status and size guards, the frame
    clamp, and when the result counts as an animated GIF. */
module GdiPlus {
  import opened Options

  /** The GDI+ status codes the conversion distinguishes. */
  datatype Status = Ok | OutOfMemoryStatus | ValueOverflow | OtherError

  /** What a GDI+ bitmap reports about itself. `frameCount` is what
      GetFrameCount returns for the first frame dimension. `drawStatus` is the
      status after drawing onto a background (only consulted with alpha);
      `lockStatus` is the result of LockBits; `dibConverted` whether the
      32-bit copy could be made. */
  datatype Bitmap = Bitmap(
    status: Status, width: nat, height: nat, isGif: bool,
    dimensionCount: nat, frameCount: int, hasAlpha: bool,
    drawStatus: Status, lockStatus: Status, dibConverted: bool)

  /** MAX_IMAGE_DIMENSION and MAX_IMAGE_PIXELS (their values are not part of
      this model). */
  datatype Limits = Limits(maxDimension: int, maxPixels: int)

  /** Verdict of the size guards. */
  datatype Guard = Pass | Reject(outOfMemory: bool)

  /** A dimension over the limit is refused without OutOfMemory; within the
      dimension limit, a pixel count over the limit is refused with it. */
  function SizeGuard(width: nat, height: nat, limits: Limits): (g: Guard)
    ensures g == Reject(false) <==> width > limits.maxDimension || height > limits.maxDimension
    ensures g == Reject(true) <==>
      width <= limits.maxDimension && height <= limits.maxDimension && width * height > limits.maxPixels
    ensures g == Pass <==>
      width <= limits.maxDimension && height <= limits.maxDimension && width * height <= limits.maxPixels
  {
    if width > limits.maxDimension || height > limits.maxDimension then Reject(false)
    else if width * height > limits.maxPixels then Reject(true)
    else Pass
  }

  /** Number of frames: one when the bitmap has no frame dimension. */
  function FrameCount(b: Bitmap): int {
    if b.dimensionCount == 0 then 1 else b.frameCount
  }

  /** The requested frame, clamped to [0, frameCount - 1] (to 0 when the
      count is not positive). */
  function ClampFrame(index: int, frameCount: int): (r: int)
    ensures 0 <= r
    ensures frameCount >= 1 ==> r < frameCount
    ensures frameCount <= 1 ==> r == 0
    ensures 0 <= index < frameCount ==> r == index
    ensures index < 0 ==> r == 0
    ensures frameCount >= 1 && index >= frameCount ==> r == frameCount - 1
  {
    var upper := if frameCount - 1 < index then frameCount - 1 else index;
    if upper < 0 then 0 else upper
  }

  lemma ClampFrameIdempotent(index: int, frameCount: int)
    ensures ClampFrame(ClampFrame(index, frameCount), frameCount) == ClampFrame(index, frameCount)
  {
  }

  /** The converted image: the frame shown and whether it is an animated GIF. */
  datatype FrameImage = FrameImage(frame: int, frameCount: int, animatedGif: bool)

  /** Result of the conversion: the image (or NULL), the out-of-memory flag
      and the animated-GIF flag, as the three outputs of the source. */
  datatype Converted = Converted(image: Option<FrameImage>, outOfMemory: bool, animatedGif: bool)

  /** The conversion. A failed status yields NULL with OutOfMemory exactly
      for the OutOfMemory status; then the size guards; then the frame clamp;
      then the alpha blit (OutOfMemory on failure) and the 32-bit copy
      (OutOfMemory when LockBits overflows). The animated-GIF flag is set
      once the guards pass, even when a later step fails. */
  function Convert(b: Bitmap, frameIndex: int, limits: Limits): (r: Converted)
    ensures r.image.Some? ==>
      && b.status == Ok && SizeGuard(b.width, b.height, limits) == Pass
      && !r.outOfMemory
      && r.image.value.frame == ClampFrame(frameIndex, FrameCount(b))
      && r.image.value.frameCount == FrameCount(b)
      && (r.image.value.animatedGif <==> r.animatedGif)
    ensures r.image.Some? <==>
      && b.status == Ok && SizeGuard(b.width, b.height, limits) == Pass
      && !(b.hasAlpha && b.drawStatus == OutOfMemoryStatus)
      && b.lockStatus == Ok && b.dibConverted
    ensures r.animatedGif <==>
      b.status == Ok && SizeGuard(b.width, b.height, limits) == Pass && b.isGif && FrameCount(b) > 1
    ensures b.status != Ok ==> r == Converted(None, b.status == OutOfMemoryStatus, false)
    ensures b.status == Ok && SizeGuard(b.width, b.height, limits).Reject? ==>
      r == Converted(None, SizeGuard(b.width, b.height, limits).outOfMemory, false)
  {
    if b.status != Ok then Converted(None, b.status == OutOfMemoryStatus, false)
    else match SizeGuard(b.width, b.height, limits)
      case Reject(oom) => Converted(None, oom, false)
      case Pass =>
        var count := FrameCount(b);
        var frame := ClampFrame(frameIndex, count);
        var animated := b.isGif && count > 1;
        if b.hasAlpha && b.drawStatus == OutOfMemoryStatus then Converted(None, true, animated)
        else if b.lockStatus == Ok then
          Converted(if b.dibConverted then Some(FrameImage(frame, count, animated)) else None, false, animated)
        else Converted(None, b.lockStatus == ValueOverflow, animated)
  }

  /** With a failed conversion, OutOfMemory is reported exactly for the
      OutOfMemory status, an over-limit pixel count, a failed alpha blit or an
      overflowing LockBits; an over-limit dimension is not an OutOfMemory. */
  lemma {:induction false} ConvertOutOfMemoryCauses(b: Bitmap, frameIndex: int, limits: Limits)
    ensures Convert(b, frameIndex, limits).outOfMemory <==>
      || b.status == OutOfMemoryStatus
      || (b.status == Ok && SizeGuard(b.width, b.height, limits) == Reject(true))
      || (b.status == Ok && SizeGuard(b.width, b.height, limits) == Pass &&
          ((b.hasAlpha && b.drawStatus == OutOfMemoryStatus) || b.lockStatus == ValueOverflow))
  {
  }
}

=== FILE: geometry.dfy ===
/** The integer part of post-load processing: clamping the zoomed size,
    clipping it to the target window, and limiting the pan offsets. */
module Geometry {

  datatype Size = Size(cx: int, cy: int)
  datatype Point = Point(x: int, y: int)

  /** Largest width or height after zoom. */
  const MAX_ZOOMED_SIZE: int := 65535

  function Min(a: int, b: int): int { if a < b then a else b }
  function Max(a: int, b: int): int { if a > b then a else b }

  /** C's `/ 2` on int: the quotient is truncated toward zero. */
  function HalfTruncated(a: int): (q: int)
    ensures a >= 0 ==> q == a / 2
    ensures a < 0 ==> -q == (-a) / 2
  {
    if a >= 0 then a / 2 else -((-a) / 2)
  }

  /** The largest offset magnitude on one axis: half the excess of the image
      over the clipping window, and zero when there is no excess. */
  function MaxOffset(image: int, clip: int): (m: int)
    ensures m >= 0
    ensures m == if image >= clip then (image - clip) / 2 else 0
  {
    Max(0, HalfTruncated(image - clip))
  }

  /** `max(-m, min(+m, v))`. */
  function ClampOffset(v: int, m: int): (r: int)
    requires m >= 0
    ensures -m <= r <= m
    ensures -m <= v <= m ==> r == v
    ensures v > m ==> r == m
    ensures v < -m ==> r == -m
  {
    Max(-m, Min(m, v))
  }

  /** LimitOffsets: each offset is pulled into [-m, m] for its axis's m. */
  function LimitOffsets(offsets: Point, clip: Size, image: Size): (r: Point)
    ensures -MaxOffset(image.cx, clip.cx) <= r.x <= MaxOffset(image.cx, clip.cx)
    ensures -MaxOffset(image.cy, clip.cy) <= r.y <= MaxOffset(image.cy, clip.cy)
    ensures -MaxOffset(image.cx, clip.cx) <= offsets.x <= MaxOffset(image.cx, clip.cx) ==> r.x == offsets.x
    ensures -MaxOffset(image.cy, clip.cy) <= offsets.y <= MaxOffset(image.cy, clip.cy) ==> r.y == offsets.y
  {
    Point(ClampOffset(offsets.x, MaxOffset(image.cx, clip.cx)),
          ClampOffset(offsets.y, MaxOffset(image.cy, clip.cy)))
  }

  lemma LimitOffsetsIdempotent(offsets: Point, clip: Size, image: Size)
    ensures LimitOffsets(LimitOffsets(offsets, clip, image), clip, image) == LimitOffsets(offsets, clip, image)
  {
  }

  /** The zoomed size, each axis clamped to [1, 65535]. */
  function ClampSize(s: Size): (r: Size)
    ensures 1 <= r.cx <= MAX_ZOOMED_SIZE && 1 <= r.cy <= MAX_ZOOMED_SIZE
    ensures 1 <= s.cx <= MAX_ZOOMED_SIZE ==> r.cx == s.cx
    ensures 1 <= s.cy <= MAX_ZOOMED_SIZE ==> r.cy == s.cy
    ensures s.cx < 1 ==> r.cx == 1
    ensures s.cy < 1 ==> r.cy == 1
    ensures s.cx > MAX_ZOOMED_SIZE ==> r.cx == MAX_ZOOMED_SIZE
    ensures s.cy > MAX_ZOOMED_SIZE ==> r.cy == MAX_ZOOMED_SIZE
  {
    Size(Max(1, Min(MAX_ZOOMED_SIZE, s.cx)), Max(1, Min(MAX_ZOOMED_SIZE, s.cy)))
  }

  /** The part of the zoomed image that fits the target window. */
  function Clip(target: Size, s: Size): (r: Size)
    ensures r.cx <= target.cx && r.cx <= s.cx && (r.cx == target.cx || r.cx == s.cx)
    ensures r.cy <= target.cy && r.cy <= s.cy && (r.cy == target.cy || r.cy == s.cy)
  {
    Size(Min(target.cx, s.cx), Min(target.cy, s.cy))
  }

  /** The source limits offsets against the target size rather than the
      clipped size; because the clipped size is the smaller of target and
      image, both give the same bounds. */
  lemma {:induction false} TargetBoundsEqualClippedBounds(offsets: Point, target: Size, image: Size)
    ensures LimitOffsets(offsets, target, image) == LimitOffsets(offsets, Clip(target, image), image)
  {
    var clipped := Clip(target, image);
    assert MaxOffset(image.cx, target.cx) == MaxOffset(image.cx, clipped.cx);
    assert MaxOffset(image.cy, target.cy) == MaxOffset(image.cy, clipped.cy);
  }

  /** The processing parameters of a request that post-load processing uses. */
  datatype ProcessParams = ProcessParams(targetWidth: int, targetHeight: int, offsets: Point,
                                         noProcessingAfterLoad: bool)

  /** What the image itself reports during post-load processing: how it
      rewrites the request's parameters for the file name
      (SetFileDependentProcessParams), whether the rotation is accepted, the
      size the zoom rule yields, and whether the display buffer could be
      produced. */
  datatype AfterLoadFacts = AfterLoadFacts(adjust: ProcessParams -> ProcessParams, rotationOk: bool,
                                           zoomedSize: Size, dibOk: bool)

  datatype AfterLoad = AfterLoad(ok: bool, params: ProcessParams)

  /** The window the image is shown in, when processing runs. */
  function Window(p: ProcessParams, facts: AfterLoadFacts): (w: Size)
    ensures w.cx <= p.targetWidth && w.cy <= p.targetHeight
    ensures 1 <= p.targetWidth ==> 1 <= w.cx
    ensures 1 <= p.targetHeight ==> 1 <= w.cy
  {
    Clip(Size(p.targetWidth, p.targetHeight), ClampSize(facts.zoomedSize))
  }

  /** ProcessImageAfterLoad: the parameters are first rewritten for the file
      name; then rotation (a refused rotation fails the request); with
      processing turned off, stop there; otherwise clamp the zoomed size, limit
      the offsets (written back into the parameters) and succeed exactly when
      the display buffer is produced. Every outcome keeps the rewrite. */
  function ProcessAfterLoad(p: ProcessParams, facts: AfterLoadFacts): (r: AfterLoad)
    ensures var a := facts.adjust(p);
      && (r.ok <==> facts.rotationOk && (a.noProcessingAfterLoad || facts.dibOk))
      && r.params.targetWidth == a.targetWidth && r.params.targetHeight == a.targetHeight
      && r.params.noProcessingAfterLoad == a.noProcessingAfterLoad
      && (!facts.rotationOk || a.noProcessingAfterLoad ==> r.params == a)
    ensures var a := facts.adjust(p);
      facts.rotationOk && !a.noProcessingAfterLoad ==>
      var image := ClampSize(facts.zoomedSize);
      var window := Window(a, facts);
      && -MaxOffset(image.cx, window.cx) <= r.params.offsets.x <= MaxOffset(image.cx, window.cx)
      && -MaxOffset(image.cy, window.cy) <= r.params.offsets.y <= MaxOffset(image.cy, window.cy)
      && (-MaxOffset(image.cx, window.cx) <= a.offsets.x <= MaxOffset(image.cx, window.cx) ==>
            r.params.offsets.x == a.offsets.x)
      && (-MaxOffset(image.cy, window.cy) <= a.offsets.y <= MaxOffset(image.cy, window.cy) ==>
            r.params.offsets.y == a.offsets.y)
  {
    var a := facts.adjust(p);
    if !facts.rotationOk then AfterLoad(false, a)
    else if a.noProcessingAfterLoad then AfterLoad(true, a)
    else
      var newSize := ClampSize(facts.zoomedSize);
      var target := Size(a.targetWidth, a.targetHeight);
      TargetBoundsEqualClippedBounds(a.offsets, target, newSize);
      AfterLoad(facts.dibOk, a.(offsets := LimitOffsets(a.offsets, target, newSize)))
  }
}

=== FILE: options.dfy ===
/** The optional-value type used throughout the model (a C value that may be NULL). */
module Options {

  datatype Option<+T> = None | Some(value: T)
}

=== FILE: readers.dfy ===
/** The per-format readers (ProcessRead*Request): which decoders they call,
    in which order, how they fall back, how they use the decoder cache, and
    which request flags each outcome sets. */
module Readers {
  import opened Options
  import opened Decoding
  import opened DecoderCache
  import opened GdiPlus

  /** File-size ceilings: MAX_JPEG_FILE_SIZE, MAX_WEBP_FILE_SIZE,
      MAX_PNG_FILE_SIZE, MAX_JXL_FILE_SIZE, MAX_HEIF_FILE_SIZE. */
  datatype Caps = Caps(jpeg: int, webp: int, png: int, jxl: int, heif: int)

  /** `preferGdiPlus` is ForceGDIPlus() || UseEmbeddedColorProfiles();
      `displayFullSizeRaw` is DisplayFullSizeRAW(). */
  datatype Settings = Settings(preferGdiPlus: bool, displayFullSizeRaw: int)

  /** A GDI+ bitmap as constructed, or a constructor that threw. */
  datatype GdiLoad = Opened(bitmap: Bitmap) | GdiThrew

  /** Everything a load consults outside the request and the cache: the file,
      the ceilings and limits, the settings, the codec outcomes, whether the
      file needs libpng (PngReader::MustUseLibpng), whether a memory stream
      could be created, and the GDI+ bitmaps: constructed from the file, kept
      in the GDI+ slot (used when the slot names the requested file), and
      constructed from the in-memory stream. */
  datatype Env = Env(
    file: FileFacts, caps: Caps, limits: Limits, settings: Settings,
    decode: Decoder -> Outcome, pngNeedsLibpng: bool, streamCreated: bool,
    fileBitmap: GdiLoad, cachedBitmap: Bitmap, streamBitmap: GdiLoad)

  /** A reader's effect: the cache, the request's result fields, whether an
      exception left the reader uncaught, and the decoder calls in order. */
  datatype Step = Step(caches: Caches, state: LoadState, thrown: bool, calls: seq<Decoder>)

  /** A GDI+ conversion's result written into the request: the image, and
      OutOfMemory only when there is no image. */
  function FromGdi(st: LoadState, d: Decoder, r: Converted): (s: LoadState)
    ensures s.image.Some? <==> r.image.Some?
    ensures s.image.Some? ==> s.image.value == Image(d)
    ensures s.outOfMemory <==> r.image.None? && r.outOfMemory
    ensures s.exceptionError == st.exceptionError
  {
    st.(image := if r.image.Some? then Some(Image(d)) else None, outOfMemory := r.image.None? && r.outOfMemory)
  }

  // ---------------------------------------------------------------------------
  // GDI+ on the file (ProcessReadGDIPlusRequest); no catch block of its own.

  /** An empty name equals the empty cached name, so the reader takes the
      cached bitmap, which is NULL whenever the name is empty; the conversion
      then dereferences NULL. That access violation is modelled as an
      exception leaving the reader, like a throwing constructor. */
  function ReadGdiFile(c: Caches, st: LoadState, name: string, frame: int, env: Env): (s: Step)
    ensures s.calls == [GdiFile]
    ensures forall t :: t != GdiBitmap ==> Get(s.caches, t) == Get(c, t)
    ensures s.state.exceptionError == st.exceptionError
    ensures s.thrown <==> (name != c.gdi && env.fileBitmap.GdiThrew?) || (name == "" && c.gdi == "")
    ensures s.thrown ==> s.caches.gdi == "" && s.state == st
    ensures !s.thrown ==>
      var b := if name == c.gdi then env.cachedBitmap else env.fileBitmap.bitmap;
      var r := Convert(b, frame, env.limits);
      && s.caches.gdi == (if r.animatedGif then name else "")
      && s.state == FromGdi(st, GdiFile, r)
  {
    if name == "" && c.gdi == "" then Step(c, st, true, [GdiFile])
    else if name == c.gdi then
      var r := Convert(env.cachedBitmap, frame, env.limits);
      Step(if r.animatedGif then c else Clear(c, GdiBitmap), FromGdi(st, GdiFile, r), false, [GdiFile])
    else match env.fileBitmap
      case GdiThrew => Step(Clear(c, GdiBitmap), st, true, [GdiFile])
      case Opened(b) =>
        var r := Convert(b, frame, env.limits);
        Step(if r.animatedGif then c.(gdi := name) else Clear(c, GdiBitmap), FromGdi(st, GdiFile, r), false, [GdiFile])
  }

  // ---------------------------------------------------------------------------
  // The shared part of the WEBP, JXL and AVIF readers.

  /** The buffer a cached-family reader decodes from: the cached decoder when
      the name matches (no file access), else the file read into memory. */
  function FamilyBuffer(cached: string, name: string, file: FileFacts, cap: int): (b: Buffer)
    ensures name == cached ==> b == Loaded
    ensures name != cached ==> b == LoadFile(file, cap)
  {
    if name == cached then Loaded else LoadFile(file, cap)
  }

  datatype FamilyStep = FamilyStep(slot: string, state: LoadState, buffer: Buffer, calls: seq<Decoder>)

  /** Cache check, buffered read, one decode call, and the slot update. A
      throw is caught; `catchSetsFlag` says whether the catch block sets
      ExceptionError. */
  function RunFamily(cached: string, name: string, st: LoadState, env: Env, cap: int,
                     d: Decoder, catchSetsFlag: bool): (r: FamilyStep)
    ensures r.slot == "" || r.slot == name
    ensures r.buffer == FamilyBuffer(cached, name, env.file, cap)
    ensures r.calls == (if r.buffer == Loaded then [d] else [])
    ensures r.buffer != Loaded ==> r.slot == ""
    ensures r.buffer == Loaded ==> r.slot == Settle(Check(cached, name), name, env.decode(d))
    ensures (r.buffer == TooLarge || r.buffer == NoMemory) ==> r.state == st.(outOfMemory := true)
    ensures (r.buffer == NotOpened || r.buffer == ShortRead) ==> r.state == st
    ensures r.buffer == Loaded && env.decode(d).Threw? ==> r.state == Caught(st, catchSetsFlag)
    ensures r.buffer == Loaded && !env.decode(d).Threw? ==> r.state == Assign(st, d, env.decode(d))
  {
    var checked := Check(cached, name);
    match FamilyBuffer(cached, name, env.file, cap)
    case NotOpened => FamilyStep(checked, st, NotOpened, [])
    case ShortRead => FamilyStep(checked, st, ShortRead, [])
    case TooLarge => FamilyStep(checked, st.(outOfMemory := true), TooLarge, [])
    case NoMemory => FamilyStep(checked, st.(outOfMemory := true), NoMemory, [])
    case Loaded =>
      var o := env.decode(d);
      FamilyStep(Settle(checked, name, o), if o.Threw? then Caught(st, catchSetsFlag) else Assign(st, d, o), Loaded, [d])
  }

  /** WEBP: the catch block discards the image but sets no flag. */
  function ReadWebp(c: Caches, st: LoadState, name: string, env: Env): (s: Step)
    ensures !s.thrown
    ensures forall t :: t != WebpSlot ==> Get(s.caches, t) == Get(c, t)
    ensures s.caches.webp == "" || s.caches.webp == name
    ensures s.state.exceptionError == st.exceptionError
    ensures var b := FamilyBuffer(c.webp, name, env.file, env.caps.webp);
      && s.calls == (if b == Loaded then [WebpReader] else [])
      && (b == Loaded ==> (s.state.image.Some? <==> env.decode(WebpReader).Decoded?))
      && (b == Loaded && env.decode(WebpReader).Decoded? ==> s.state.image == Some(Image(WebpReader)))
  {
    var r := RunFamily(c.webp, name, st, env, env.caps.webp, WebpReader, false);
    Step(c.(webp := r.slot), r.state, false, r.calls)
  }

  /** JXL: the catch block sets ExceptionError. */
  function ReadJxl(c: Caches, st: LoadState, name: string, env: Env): (s: Step)
    ensures !s.thrown
    ensures forall t :: t != JxlSlot ==> Get(s.caches, t) == Get(c, t)
    ensures s.caches.jxl == "" || s.caches.jxl == name
    ensures var b := FamilyBuffer(c.jxl, name, env.file, env.caps.jxl);
      && s.calls == (if b == Loaded then [JxlReader] else [])
      && (b == Loaded ==> (s.state.image.Some? <==> env.decode(JxlReader).Decoded?))
      && (b == Loaded && env.decode(JxlReader).Threw? ==> s.state.exceptionError)
      && (!(b == Loaded && env.decode(JxlReader).Threw?) ==> s.state.exceptionError == st.exceptionError)
  {
    var r := RunFamily(c.jxl, name, st, env, env.caps.jxl, JxlReader, true);
    Step(c.(jxl := r.slot), r.state, false, r.calls)
  }

  /** HEIF: buffered read against the HEIF ceiling and one decode call;
      heif::Error is caught without a flag, any other exception sets
      ExceptionError. */
  function ReadHeif(c: Caches, st: LoadState, env: Env): (s: Step)
    ensures !s.thrown && s.caches == c
    ensures s.calls == (if LoadFile(env.file, env.caps.heif) == Loaded then [HeifReader] else [])
    ensures env.decode(HeifReader).Threw? && LoadFile(env.file, env.caps.heif) == Loaded ==>
      s.state.image.None? &&
      (s.state.exceptionError <==> st.exceptionError || !env.decode(HeifReader).libraryError)
  {
    match LoadFile(env.file, env.caps.heif)
    case NotOpened => Step(c, st, false, [])
    case ShortRead => Step(c, st, false, [])
    case TooLarge => Step(c, st.(outOfMemory := true), false, [])
    case NoMemory => Step(c, st.(outOfMemory := true), false, [])
    case Loaded =>
      var o := env.decode(HeifReader);
      Step(c, if o.Threw? then Caught(st, !o.libraryError) else Assign(st, HeifReader, o), false, [HeifReader])
  }

  /** AVIF: the family protocol against the HEIF ceiling; unless the AVIF
      decode succeeded, the HEIF reader runs next, except after the three
      early returns (file not opened, over the ceiling, no buffer). */
  function ReadAvif(c: Caches, st: LoadState, name: string, env: Env): (s: Step)
    ensures !s.thrown
    ensures forall t :: t != AvifSlot ==> Get(s.caches, t) == Get(c, t)
    ensures s.caches.avif == "" || s.caches.avif == name
    ensures s.calls in {[], [AvifReader], [AvifReader, HeifReader]}
    ensures st.image.None? && s.state.image.Some? ==> |s.calls| > 0 && s.state.image.value == Image(s.calls[|s.calls| - 1])
    // A throw in the AVIF try block sets ExceptionError, and HEIF cannot clear it.
    ensures FamilyBuffer(c.avif, name, env.file, env.caps.heif) == Loaded && env.decode(AvifReader).Threw? ==>
      s.state.exceptionError
    ensures s.state.exceptionError != st.exceptionError ==>
      && s.state.exceptionError
      && (env.decode(AvifReader).Threw? || (env.decode(HeifReader).Threw? && !env.decode(HeifReader).libraryError))
  {
    var r := RunFamily(c.avif, name, st, env, env.caps.heif, AvifReader, true);
    var c1 := c.(avif := r.slot);
    if r.buffer == NotOpened || r.buffer == TooLarge || r.buffer == NoMemory then Step(c1, r.state, false, r.calls)
    else if r.buffer == Loaded && env.decode(AvifReader).Decoded? then Step(c1, r.state, false, r.calls)
    else
      var h := ReadHeif(c1, r.state, env);
      assert [] + h.calls == h.calls && r.calls + [] == r.calls;
      assert [AvifReader] + [HeifReader] == [AvifReader, HeifReader];
      Step(c1, h.state, false, r.calls + h.calls)
  }

  // ---------------------------------------------------------------------------
  // PNG: libpng unless GDI+ is preferred for a file libpng is not needed for;
  // when libpng yields nothing, GDI+ on the in-memory buffer.

  function ReadPng(c: Caches, st: LoadState, name: string, env: Env): (s: Step)
    ensures !s.thrown
    ensures forall t :: t != PngSlot ==> Get(s.caches, t) == Get(c, t)
    ensures s.caches.png == "" || s.caches.png == name
    ensures var b := FamilyBuffer(c.png, name, env.file, env.caps.png);
      var libpng := name == c.png || !env.settings.preferGdiPlus || env.pngNeedsLibpng;
      && (PngReader in s.calls <==> b == Loaded && libpng)
      && (GdiStream in s.calls <==>
            b == Loaded && env.streamCreated &&
            (!libpng || env.decode(PngReader) == Declined || env.decode(PngReader) == OutOfMemory))
      && (b == TooLarge || b == NoMemory ==> s.state == st.(outOfMemory := true))
      && (b == Loaded && libpng && env.decode(PngReader) == Decoded(true) ==> s.caches.png == name)
      && (b == Loaded && libpng && (env.decode(PngReader) == Declined || env.decode(PngReader) == OutOfMemory) ==>
            s.caches.png == "")
      && (b == Loaded && libpng && (env.decode(PngReader) == Decoded(false) || env.decode(PngReader).Threw?) ==>
            s.caches.png == (if name == c.png then name else ""))
      && (b == Loaded && !libpng ==> s.caches.png == "")
      && (b != Loaded ==> s.caches.png == "")
      && (b == NotOpened || b == ShortRead ==> s.state == st)
      // The catch block: a throw from libpng or from GDI+ on the buffer
      // drops the image and sets ExceptionError.
      && (b == Loaded && libpng && env.decode(PngReader).Threw? ==>
            s.state.exceptionError && s.state.image.None?)
      && (b == Loaded && env.streamCreated && env.streamBitmap.GdiThrew? &&
          (!libpng || env.decode(PngReader) == Declined || env.decode(PngReader) == OutOfMemory) ==>
            s.state.exceptionError && s.state.image.None?)
    ensures s.state.exceptionError != st.exceptionError ==> s.state.exceptionError && s.state.image.None?
    ensures s.calls in {[], [PngReader], [GdiStream], [PngReader, GdiStream]}
    ensures st.image.None? && s.state.image.Some? ==> |s.calls| > 0 && s.state.image.value == Image(s.calls[|s.calls| - 1])
  {
    var reuse := name == c.png;
    var c1 := c.(png := Check(c.png, name));
    match FamilyBuffer(c.png, name, env.file, env.caps.png)
    case NotOpened => Step(c1, st, false, [])
    case ShortRead => Step(c1, st, false, [])
    case TooLarge => Step(c1, st.(outOfMemory := true), false, [])
    case NoMemory => Step(c1, st.(outOfMemory := true), false, [])
    case Loaded =>
      var useLibpng := reuse || !env.settings.preferGdiPlus || env.pngNeedsLibpng;
      var o := if useLibpng then env.decode(PngReader) else Declined;
      var lib := if useLibpng then [PngReader] else [];
      var withGdi := if useLibpng then [PngReader, GdiStream] else [GdiStream];
      if o.Threw? then Step(c1, Caught(st, true), false, lib)
      else if o.Decoded? then Step(c1.(png := Settle(c1.png, name, o)), Assign(st, PngReader, o), false, lib)
      else
        var st1 := if useLibpng then Assign(st, PngReader, o) else st;
        var c2 := Clear(c1, PngSlot);
        if !env.streamCreated then Step(c2, st1.(outOfMemory := true), false, lib)
        else match env.streamBitmap
          case GdiThrew => Step(c2, Caught(st1, true), false, withGdi)
          case Opened(b) => Step(c2, FromGdi(st1, GdiStream, Convert(b, 0, env.limits)), false, withGdi)
  }

  // ---------------------------------------------------------------------------
  // JPEG.

  /** The TurboJPEG attempt; when it declines without OutOfMemory, GDI+ on the
      file. Runs inside the JPEG reader's try block, so throws are caught
      and set ExceptionError. A success does not touch OutOfMemory. */
  function JpegTurbo(c: Caches, st: LoadState, name: string, frame: int, env: Env, before: seq<Decoder>): (s: Step)
    ensures !s.thrown
    ensures |s.calls| > |before| && s.calls[..|before|] == before && s.calls[|before|] == TurboJpeg
    ensures env.decode(TurboJpeg).Decoded? ==> s.state == st.(image := Some(Image(TurboJpeg)))
    ensures env.decode(TurboJpeg) == OutOfMemory ==> s.state.outOfMemory && s.calls == before + [TurboJpeg]
    ensures env.decode(TurboJpeg) == Declined ==> s.calls == before + [TurboJpeg, GdiFile]
    ensures s.calls == before + [TurboJpeg] || s.calls == before + [TurboJpeg, GdiFile]
    ensures st.image.None? && s.state.image.Some? ==> s.state.image.value == Image(s.calls[|s.calls| - 1])
    ensures env.decode(TurboJpeg).Threw? ==> s.state.exceptionError && s.state.image.None?
    ensures s.state.exceptionError != st.exceptionError ==> s.state.exceptionError && s.state.image.None?
    ensures forall t :: t != GdiBitmap ==> Get(s.caches, t) == Get(c, t)
    ensures s.caches.gdi == c.gdi || s.caches.gdi == "" || s.caches.gdi == name
  {
    match env.decode(TurboJpeg)
    case Decoded(_) => Step(c, st.(image := Some(Image(TurboJpeg))), false, before + [TurboJpeg])
    case OutOfMemory => Step(c, st.(outOfMemory := true), false, before + [TurboJpeg])
    case Threw(_) => Step(c, Caught(st, true), false, before + [TurboJpeg])
    case Declined =>
      var g := ReadGdiFile(c, st, name, frame, env);
      Step(g.caches, if g.thrown then Caught(g.state, true) else g.state, false, before + [TurboJpeg] + g.calls)
  }

  /** JPEG: buffered read against the JPEG ceiling; with GDI+ preferred, GDI+
      on the buffer first, and TurboJPEG only when that set OutOfMemory. */
  function ReadJpeg(c: Caches, st: LoadState, name: string, frame: int, env: Env): (s: Step)
    ensures !s.thrown
    ensures forall t :: t != GdiBitmap ==> Get(s.caches, t) == Get(c, t)
    ensures s.caches.gdi == c.gdi || s.caches.gdi == "" || s.caches.gdi == name
    ensures s.calls in {[], [TurboJpeg], [TurboJpeg, GdiFile], [GdiStream], [GdiStream, TurboJpeg], [GdiStream, TurboJpeg, GdiFile]}
    ensures !env.settings.preferGdiPlus ==> GdiStream !in s.calls
    ensures st.image.None? && s.state.image.Some? ==> |s.calls| > 0 && s.state.image.value == Image(s.calls[|s.calls| - 1])
    // The read prologue: nothing to decode, or OutOfMemory when the file is
    // over the ceiling or the buffer cannot be allocated.
    ensures LoadFile(env.file, env.caps.jpeg) in {NotOpened, ShortRead} ==> s.state == st && s.calls == []
    ensures LoadFile(env.file, env.caps.jpeg) in {TooLarge, NoMemory} ==>
      s.state == st.(outOfMemory := true) && s.calls == []
    // The catch block: a throw drops the image and sets ExceptionError.
    ensures LoadFile(env.file, env.caps.jpeg) == Loaded && !env.settings.preferGdiPlus && env.decode(TurboJpeg).Threw? ==>
      s.state.exceptionError && s.state.image.None?
    ensures (LoadFile(env.file, env.caps.jpeg) == Loaded && env.settings.preferGdiPlus && env.streamCreated &&
             env.streamBitmap.GdiThrew?) ==> s.state.exceptionError && s.state.image.None?
    ensures s.state.exceptionError != st.exceptionError ==> s.state.exceptionError && s.state.image.None?
  {
    match LoadFile(env.file, env.caps.jpeg)
    case NotOpened => Step(c, st, false, [])
    case ShortRead => Step(c, st, false, [])
    case TooLarge => Step(c, st.(outOfMemory := true), false, [])
    case NoMemory => Step(c, st.(outOfMemory := true), false, [])
    case Loaded =>
      if !env.settings.preferGdiPlus then JpegTurbo(c, st, name, frame, env, [])
      else if !env.streamCreated then JpegTurbo(c, st.(outOfMemory := true), name, frame, env, [])
      else match env.streamBitmap
        case GdiThrew => Step(c, Caught(st, true), false, [GdiStream])
        case Opened(b) =>
          var st1 := FromGdi(st, GdiStream, Convert(b, 0, env.limits));
          if st1.outOfMemory then
            var t := JpegTurbo(c, st1, name, frame, env, [GdiStream]);
            assert [GdiStream] + [TurboJpeg] == [GdiStream, TurboJpeg];
            assert [GdiStream] + [TurboJpeg, GdiFile] == [GdiStream, TurboJpeg, GdiFile];
            t
          else Step(c, st1, false, [GdiStream])
  }

  // ---------------------------------------------------------------------------
  // Readers without a file buffer of their own.

  /** BMP: OutOfMemory is final; any other failure falls back to GDI+ on the
      file. No catch block: a throw leaves the reader. */
  function ReadBmp(c: Caches, st: LoadState, name: string, frame: int, env: Env): (s: Step)
    ensures forall t :: t != GdiBitmap ==> Get(s.caches, t) == Get(c, t)
    ensures s.caches.gdi == c.gdi || s.caches.gdi == "" || s.caches.gdi == name
    ensures |s.calls| >= 1 && s.calls[0] == BmpReader
    ensures s.state.exceptionError == st.exceptionError
    ensures env.decode(BmpReader) == OutOfMemory ==>
      s.calls == [BmpReader] && s.state.outOfMemory && s.state.image.None? && !s.thrown
    ensures env.decode(BmpReader) == Declined ==> s.calls == [BmpReader, GdiFile]
  {
    match env.decode(BmpReader)
    case Threw(_) => Step(c, st, true, [BmpReader])
    case Declined =>
      var g := ReadGdiFile(c, Raise(st, BmpReader, Declined), name, frame, env);
      g.(calls := [BmpReader] + g.calls)
    case o => Step(c, Raise(st, BmpReader, o), false, [BmpReader])
  }

  /** TGA: one attempt; no fallback, no catch block. */
  function ReadTga(c: Caches, st: LoadState, env: Env): (s: Step)
    ensures s.caches == c && s.calls == [TgaReader]
    ensures s.thrown <==> env.decode(TgaReader).Threw?
    ensures s.state.exceptionError == st.exceptionError
  {
    var o := env.decode(TgaReader);
    if o.Threw? then Step(c, st, true, [TgaReader]) else Step(c, Raise(st, TgaReader, o), false, [TgaReader])
  }

  /** PSD: the full image, then the thumbnail only after a miss without
      OutOfMemory. No catch block. */
  function ReadPsd(c: Caches, st: LoadState, env: Env): (s: Step)
    ensures s.caches == c
    ensures s.calls == (if env.decode(PsdImage) == Declined then [PsdImage, PsdThumb] else [PsdImage])
    ensures s.state.exceptionError == st.exceptionError
  {
    var o := env.decode(PsdImage);
    if o.Threw? then Step(c, st, true, [PsdImage])
    else
      var st1 := Assign(st, PsdImage, o);
      if st1.image.None? && !st1.outOfMemory then
        var o2 := env.decode(PsdThumb);
        if o2.Threw? then Step(c, st1, true, [PsdImage, PsdThumb])
        else Step(c, Assign(st1, PsdThumb, o2), false, [PsdImage, PsdThumb])
      else Step(c, st1, false, [PsdImage])
  }

  /** QOI: buffered read against the PNG ceiling and one decode call. */
  function ReadQoi(c: Caches, st: LoadState, env: Env): (s: Step)
    ensures !s.thrown && s.caches == c
    ensures s.calls == (if LoadFile(env.file, env.caps.png) == Loaded then [QoiReader] else [])
    ensures LoadFile(env.file, env.caps.png) in {NotOpened, ShortRead} ==> s.state == st
    ensures LoadFile(env.file, env.caps.png) in {TooLarge, NoMemory} ==> s.state == st.(outOfMemory := true)
    // After a full read: the decoder's result and its by-reference flag, or
    // the catch block on a throw.
    ensures LoadFile(env.file, env.caps.png) == Loaded && !env.decode(QoiReader).Threw? ==>
      && (s.state.image.Some? <==> env.decode(QoiReader).Decoded?)
      && (s.state.image.Some? ==> s.state.image.value == Image(QoiReader))
      && (s.state.outOfMemory <==> env.decode(QoiReader) == OutOfMemory)
      && s.state.exceptionError == st.exceptionError
    ensures LoadFile(env.file, env.caps.png) == Loaded && env.decode(QoiReader).Threw? ==>
      s.state.image.None? && s.state.exceptionError && s.state.outOfMemory == st.outOfMemory
  {
    match LoadFile(env.file, env.caps.png)
    case NotOpened => Step(c, st, false, [])
    case ShortRead => Step(c, st, false, [])
    case TooLarge => Step(c, st.(outOfMemory := true), false, [])
    case NoMemory => Step(c, st.(outOfMemory := true), false, [])
    case Loaded =>
      var o := env.decode(QoiReader);
      Step(c, if o.Threw? then Caught(st, true) else Assign(st, QoiReader, o), false, [QoiReader])
  }

  /** WIC: one attempt; it has no out-of-memory report, and its catch block
      sets no flag. */
  function ReadWic(c: Caches, st: LoadState, env: Env): (s: Step)
    ensures !s.thrown && s.caches == c && s.calls == [WicLoader]
    ensures s.state.outOfMemory == st.outOfMemory && s.state.exceptionError == st.exceptionError
  {
    if env.decode(WicLoader).Decoded? then Step(c, st.(image := Some(Image(WicLoader))), false, [WicLoader])
    else Step(c, st, false, [WicLoader])
  }

  /** DDS: one attempt. The DDS reader returns NULL on every failure and never
      writes its out-of-memory parameter, so no flag is set. No catch block. */
  function ReadDds(c: Caches, st: LoadState, env: Env): (s: Step)
    ensures s.caches == c && s.calls == [DdsReader]
    ensures s.state.outOfMemory == st.outOfMemory && s.state.exceptionError == st.exceptionError
  {
    match env.decode(DdsReader)
    case Decoded(_) => Step(c, st.(image := Some(Image(DdsReader))), false, [DdsReader])
    case Threw(_) => Step(c, st, true, [DdsReader])
    case _ => Step(c, st.(image := None), false, [DdsReader])
  }

  // ---------------------------------------------------------------------------
  // Camera RAW.

  /** The attempts inside the libraw try block, by DisplayFullSizeRAW. */
  function RawInnerAttempts(mode: int): seq<Decoder> {
    if mode == 2 then [LibRawFull, Dcraw, LibRawHalf]
    else if mode == 3 then [LibRawHalf, LibRawFull]
    else if mode == 0 then [LibRawFull]
    else [LibRawHalf]
  }

  /** Whether dcraw is tried after the libraw block. */
  function RawTriesDcrawLast(mode: int): bool {
    mode != 1 && mode != 2
  }

  datatype RawRun = RawRun(image: Option<Image>, outOfMemory: bool, threw: bool, calls: seq<Decoder>)

  /** Attempts in order until one yields an image; each call writes the local
      out-of-memory flag; a throw ends the block (the flag is left as it was). */
  function TryInOrder(ds: seq<Decoder>, env: Env, oom: bool): (r: RawRun)
    ensures |r.calls| <= |ds| && r.calls == ds[..|r.calls|]
    ensures r.image.Some? ==> |r.calls| > 0 && r.image.value == Image(r.calls[|r.calls| - 1])
    ensures forall i :: 0 <= i < |r.calls| - 1 ==> env.decode(r.calls[i]) == Declined || env.decode(r.calls[i]) == OutOfMemory
    ensures r.image.None? && !r.threw ==> r.calls == ds
    ensures r.threw ==> |r.calls| > 0 && env.decode(r.calls[|r.calls| - 1]).Threw?
    ensures r.image.Some? <==> |r.calls| > 0 && env.decode(r.calls[|r.calls| - 1]).Decoded?
    ensures !r.threw && |r.calls| > 0 ==> (r.outOfMemory <==> env.decode(r.calls[|r.calls| - 1]) == OutOfMemory)
    decreases |ds|
  {
    if |ds| == 0 then RawRun(None, oom, false, [])
    else
      var o := env.decode(ds[0]);
      if o.Decoded? then RawRun(Some(Image(ds[0])), false, false, [ds[0]])
      else if o.Threw? then RawRun(None, oom, true, [ds[0]])
      else
        var rest := TryInOrder(ds[1..], env, o == OutOfMemory);
        var calls := [ds[0]] + rest.calls;
        assert calls[1..] == rest.calls && calls == ds[..|calls|];
        assert forall i :: 1 <= i < |calls| ==> calls[i] == rest.calls[i - 1];
        assert |rest.calls| > 0 ==> calls[|calls| - 1] == rest.calls[|rest.calls| - 1];
        RawRun(rest.image, rest.outOfMemory, rest.threw, calls)
  }

  /** ProcessReadRAWRequest: the libraw block (its exceptions are swallowed),
      then dcraw for modes other than 1 and 2 (its exception is caught
      without a flag); OutOfMemory is raised from the local flag at the end. */
  function ReadRaw(c: Caches, st: LoadState, env: Env): (s: Step)
    ensures !s.thrown && s.caches == c
    ensures s.state.exceptionError == st.exceptionError
    ensures var mode := env.settings.displayFullSizeRaw;
      var run := TryInOrder(RawInnerAttempts(mode), env, false);
      s.calls == if run.image.None? && RawTriesDcrawLast(mode) then run.calls + [Dcraw] else run.calls
    ensures s.state.image.Some? ==> |s.calls| > 0 && s.state.image.value == Image(s.calls[|s.calls| - 1])
  {
    var mode := env.settings.displayFullSizeRaw;
    var inner := TryInOrder(RawInnerAttempts(mode), env, false);
    var last :=
      if inner.image.None? && RawTriesDcrawLast(mode) then
        match env.decode(Dcraw)
        case Decoded(_) => RawRun(Some(Image(Dcraw)), false, false, inner.calls + [Dcraw])
        case Threw(_) => RawRun(None, inner.outOfMemory, true, inner.calls + [Dcraw])
        case o => RawRun(None, o == OutOfMemory, false, inner.calls + [Dcraw])
      else inner;
    Step(c, st.(image := last.image, outOfMemory := st.outOfMemory || last.outOfMemory), false, last.calls)
  }

  // ---------------------------------------------------------------------------
  // Properties of the readers.

  /** The order in which ImageLoadThread.cpp:1025-1044 makes the RAW calls
      for each DisplayFullSizeRAW value: 0 = libraw full size,
      then dcraw; 1 = libraw half size only; 2 = libraw full size, dcraw,
      libraw half size; 3 = libraw half size, libraw full size, dcraw; any
      other value = libraw half size, then dcraw. */
  function RawOrder(mode: int): seq<Decoder> {
    if mode == 0 then [LibRawFull, Dcraw]
    else if mode == 1 then [LibRawHalf]
    else if mode == 2 then [LibRawFull, Dcraw, LibRawHalf]
    else if mode == 3 then [LibRawHalf, LibRawFull, Dcraw]
    else [LibRawHalf, Dcraw]
  }

  /** RawOrder is the libraw block's attempts followed by the closing dcraw
      attempt where the reader makes one. */
  lemma RawOrderSplits(mode: int)
    ensures RawOrder(mode) == RawInnerAttempts(mode) + (if RawTriesDcrawLast(mode) then [Dcraw] else [])
  {
  }

  /** With no attempt throwing, the RAW reader walks RawOrder until the first
      decoded image: every attempt but the last declined or ran out of
      memory, the image comes from the last attempt, and without an image
      every attempt was made. OutOfMemory is raised exactly when the last
      attempt reported it. */
  lemma {:induction false} RawFollowsOrder(c: Caches, st: LoadState, env: Env)
    requires forall d :: d in RawOrder(env.settings.displayFullSizeRaw) ==> !env.decode(d).Threw?
    ensures var s := ReadRaw(c, st, env);
      var order := RawOrder(env.settings.displayFullSizeRaw);
      && s.calls <= order
      && |s.calls| > 0
      && (forall i :: 0 <= i < |s.calls| - 1 ==> env.decode(s.calls[i]) in {Declined, OutOfMemory})
      && (s.state.image.Some? <==> env.decode(s.calls[|s.calls| - 1]).Decoded?)
      && (s.state.image.Some? ==> s.state.image.value == Image(s.calls[|s.calls| - 1]))
      && (s.state.image.None? ==> s.calls == order)
      && (s.state.outOfMemory <==> st.outOfMemory || env.decode(s.calls[|s.calls| - 1]) == OutOfMemory)
  {
    var mode := env.settings.displayFullSizeRaw;
    var inner := RawInnerAttempts(mode);
    var order := RawOrder(mode);
    assert order == inner + (if RawTriesDcrawLast(mode) then [Dcraw] else []);
    forall i | 0 <= i < |inner| ensures !env.decode(inner[i]).Threw? {
      assert inner[i] in order;
    }
    var run := TryInOrder(inner, env, false);
    assert |run.calls| > 0;
    if run.image.None? && RawTriesDcrawLast(mode) {
      assert Dcraw in order;
      assert run.calls == inner;
    }
  }

  /** A cached-family reader whose slot names the requested file never
      touches the file: its result is the same whatever the file is. */
  lemma ReuseIgnoresFile(c: Caches, st: LoadState, name: string, env: Env, file: FileFacts)
    ensures name == c.webp ==> ReadWebp(c, st, name, env) == ReadWebp(c, st, name, env.(file := file))
    ensures name == c.jxl ==> ReadJxl(c, st, name, env) == ReadJxl(c, st, name, env.(file := file))
    ensures name == c.png ==> ReadPng(c, st, name, env) == ReadPng(c, st, name, env.(file := file))
  {
  }

  /** When libpng runs, the PNG slot follows the same check-and-settle
      protocol as the WEBP, JXL and AVIF slots. */
  lemma {:induction false} PngFollowsProtocol(c: Caches, st: LoadState, name: string, env: Env)
    requires FamilyBuffer(c.png, name, env.file, env.caps.png) == Loaded
    requires name == c.png || !env.settings.preferGdiPlus || env.pngNeedsLibpng
    ensures ReadPng(c, st, name, env).caches.png == Settle(Check(c.png, name), name, env.decode(PngReader))
  {
  }

  /** A file over a reader's ceiling is never decoded: no decoder is called,
      OutOfMemory is set, and nothing else in the request changes. */
  lemma OverCeilingNeverDecodes(c: Caches, st: LoadState, name: string, frame: int, env: Env)
    requires env.file.opens
    ensures env.file.size > env.caps.jpeg ==>
      ReadJpeg(c, st, name, frame, env) == Step(c, st.(outOfMemory := true), false, [])
    ensures env.file.size > env.caps.png ==>
      ReadQoi(c, st, env) == Step(c, st.(outOfMemory := true), false, [])
    ensures env.file.size > env.caps.heif ==>
      ReadHeif(c, st, env) == Step(c, st.(outOfMemory := true), false, [])
    ensures name != c.webp && env.file.size > env.caps.webp ==>
      ReadWebp(c, st, name, env) == Step(c.(webp := ""), st.(outOfMemory := true), false, [])
    ensures name != c.jxl && env.file.size > env.caps.jxl ==>
      ReadJxl(c, st, name, env) == Step(c.(jxl := ""), st.(outOfMemory := true), false, [])
    ensures name != c.png && env.file.size > env.caps.png ==>
      ReadPng(c, st, name, env) == Step(c.(png := ""), st.(outOfMemory := true), false, [])
    ensures name != c.avif && env.file.size > env.caps.heif ==>
      ReadAvif(c, st, name, env) == Step(c.(avif := ""), st.(outOfMemory := true), false, [])
  {
  }

  /** The AVIF reader hands over to the HEIF reader unless it decoded or
      took an early return. HEIF decodes only when its own read of the file
      succeeds, so a short AVIF read hands over to a HEIF read that comes up
      short the same way. */
  lemma AvifFallsBackToHeif(c: Caches, st: LoadState, name: string, env: Env)
    ensures var a := FamilyBuffer(c.avif, name, env.file, env.caps.heif);
      && (HeifReader in ReadAvif(c, st, name, env).calls <==>
            a == Loaded && !env.decode(AvifReader).Decoded? && LoadFile(env.file, env.caps.heif) == Loaded)
      && (a == ShortRead ==> ReadAvif(c, st, name, env) == Step(c.(avif := ""), st, false, []))
  {
  }

  /** With GDI+ preferred for JPEG, TurboJPEG runs exactly when the GDI+
      attempt on the buffer ended with OutOfMemory (including a stream that
      could not be created); without the preference it runs first. */
  lemma JpegTurboAfterGdiOutOfMemory(c: Caches, st: LoadState, name: string, frame: int, env: Env)
    requires LoadFile(env.file, env.caps.jpeg) == Loaded
    ensures !env.settings.preferGdiPlus ==> ReadJpeg(c, st, name, frame, env).calls[0] == TurboJpeg
    ensures env.settings.preferGdiPlus ==>
      (TurboJpeg in ReadJpeg(c, st, name, frame, env).calls <==>
        || !env.streamCreated
        || (env.streamBitmap.Opened? &&
            FromGdi(st, GdiStream, Convert(env.streamBitmap.bitmap, 0, env.limits)).outOfMemory))
  {
    var s := ReadJpeg(c, st, name, frame, env);
    if env.settings.preferGdiPlus && env.streamCreated && env.streamBitmap.Opened? {
      var st1 := FromGdi(st, GdiStream, Convert(env.streamBitmap.bitmap, 0, env.limits));
      if !st1.outOfMemory {
        assert s.calls == [GdiStream];
      }
    }
  }
}

=== FILE: requests.dfy ===
/** Load requests, their handles, and the result store the caller polls with
    GetLoadedImage. */
module Requests {
  import opened Options
  import opened Decoding
  import opened Geometry

  /** The range of a C `int`. */
  const INT_MIN: int := -0x8000_0000
  const INT_MAX: int := 0x7fff_ffff
  const TWO_TO_32: int := 0x1_0000_0000

  type Int32 = x: int | -0x8000_0000 <= x <= 0x7fff_ffff

  /** Two's-complement wrap of an integer into the `int` range. */
  function Wrap32(x: int): (r: Int32)
    ensures INT_MIN <= x <= INT_MAX ==> r == x
    ensures (x - r) % TWO_TO_32 == 0
  {
    (x - INT_MIN) % TWO_TO_32 + INT_MIN
  }

  /** The handle InterlockedIncrement hands out: the counter plus one, in
      32-bit arithmetic. */
  function NextHandle(counter: Int32): (h: Int32)
    ensures counter < INT_MAX ==> h == counter + 1 && h > counter
    ensures counter == INT_MAX ==> h == INT_MIN
  {
    Wrap32(counter + 1)
  }

  /** The initial value of m_curHandle. */
  const FIRST_COUNTER: Int32 := 0

  /** A load request (CRequest). `processed` is set by the work thread once
      the request has been handled; `deleted` marks it as retrieved. */
  datatype Request = Request(
    fileName: string, frameIndex: int, handle: Int32, params: ProcessParams,
    state: LoadState, processed: bool, deleted: bool)

  /** The list of requests and the handle counter. */
  datatype Store = Store(counter: Int32, requests: seq<Request>)

  /** GetCurHandleValue: the counter, which is the handle of the most
      recently created request. */
  function GetCurHandleValue(s: Store): (h: Int32)
    ensures Issued(s) && |s.requests| > 0 ==> h == s.requests[|s.requests| - 1].handle
    ensures Issued(s) && |s.requests| == 0 ==> h == FIRST_COUNTER
  {
    s.counter
  }

  /** AsyncLoad: a new request with the next handle, no image and both
      failure flags clear, appended to the list; its handle is returned. */
  function AsyncLoad(s: Store, name: string, frame: int, params: ProcessParams): (r: (Store, Int32))
    ensures r.1 == NextHandle(s.counter) && GetCurHandleValue(r.0) == r.1
    ensures |r.0.requests| == |s.requests| + 1 && r.0.requests[..|s.requests|] == s.requests
    ensures var q := r.0.requests[|s.requests|];
      && q.fileName == name && q.frameIndex == frame && q.params == params && q.handle == r.1
      && q.state.image.None? && !q.state.outOfMemory && !q.state.exceptionError
      && !q.processed && !q.deleted
  {
    var h := NextHandle(s.counter);
    (Store(h, s.requests + [Request(name, frame, h, params, FRESH, false, false)]), h)
  }

  /** One more increment on a wrapped value equals wrapping once. */
  lemma {:induction false} WrapStep(x: int)
    ensures Wrap32(Wrap32(x) + 1) == Wrap32(x + 1)
  {
    var q := (x - INT_MIN) / TWO_TO_32;
    assert x - INT_MIN == q * TWO_TO_32 + (x - INT_MIN) % TWO_TO_32;
    assert Wrap32(x) == x - q * TWO_TO_32;
    var y := x + 1 - INT_MIN;
    assert Wrap32(x) + 1 - INT_MIN == y - q * TWO_TO_32;
    ModShift(y, q);
  }

  lemma {:induction false} ModShift(y: int, q: int)
    ensures (y - q * TWO_TO_32) % TWO_TO_32 == y % TWO_TO_32
  {
    var a := y - q * TWO_TO_32;
    var r := y % TWO_TO_32;
    var d := y / TWO_TO_32;
    assert y == d * TWO_TO_32 + r;
    assert a == (d - q) * TWO_TO_32 + r;
    assert 0 <= r < TWO_TO_32;
  }

  /** The handles the store has issued: the k-th request (from zero) holds
      the handle the k+1-th increment produced, and the counter is the last. */
  predicate Issued(s: Store) {
    && s.counter == Wrap32(|s.requests|)
    && forall k :: 0 <= k < |s.requests| ==> s.requests[k].handle == Wrap32(k + 1)
  }

  lemma {:induction false} AsyncLoadKeepsIssued(s: Store, name: string, frame: int, params: ProcessParams)
    requires Issued(s)
    ensures Issued(AsyncLoad(s, name, frame, params).0)
  {
    WrapStep(|s.requests|);
  }

  /** Two values less than 2^32 apart wrap to different values. */
  lemma {:induction false} WrapInjective(a: int, b: int)
    requires 0 < b - a < TWO_TO_32
    ensures Wrap32(a) != Wrap32(b)
  {
    var qa := (a - INT_MIN) / TWO_TO_32;
    var qb := (b - INT_MIN) / TWO_TO_32;
    assert Wrap32(a) == a - qa * TWO_TO_32;
    assert Wrap32(b) == b - qb * TWO_TO_32;
    var d := qb - qa;
    assert Wrap32(b) - Wrap32(a) == (b - a) - d * TWO_TO_32;
    if d == 0 {
      assert Wrap32(b) - Wrap32(a) == b - a;
    } else {
      assert d * TWO_TO_32 >= TWO_TO_32 || d * TWO_TO_32 <= -TWO_TO_32;
    }
  }

  /** At most 2^32 requests never share a handle. */
  lemma {:induction false} IssuedHandlesDistinct(s: Store)
    requires Issued(s) && |s.requests| <= TWO_TO_32
    ensures forall i, j :: 0 <= i < j < |s.requests| ==> s.requests[i].handle != s.requests[j].handle
  {
    forall i, j | 0 <= i < j < |s.requests|
      ensures s.requests[i].handle != s.requests[j].handle
    {
      WrapInjective(i + 1, j + 1);
    }
  }

  /** Until the counter reaches INT_MAX, later requests have larger handles;
      the request after INT_MAX gets INT_MIN. */
  lemma {:induction false} HandlesIncreaseUntilWrap(s: Store)
    requires Issued(s) && |s.requests| <= INT_MAX
    ensures forall i, j :: 0 <= i < j < |s.requests| ==> s.requests[i].handle < s.requests[j].handle
  {
  }

  lemma HandleAfterIntMax()
    ensures NextHandle(INT_MAX) == INT_MIN
  {
  }

  // ---------------------------------------------------------------------------
  // Retrieval.

  /** CImageData: the image and the two failure flags. */
  datatype ImageData = ImageData(image: Option<Image>, outOfMemory: bool, exceptionError: bool)

  const NOTHING := ImageData(None, false, false)

  /** Whether request `q` is the one a retrieval with handle `h` may deliver. */
  predicate Deliverable(q: Request, h: int) {
    q.processed && !q.deleted && q.handle == h
  }

  /** The index of the first deliverable request, if any. */
  function FirstDeliverable(rs: seq<Request>, h: int): (k: Option<nat>)
    ensures k.Some? ==>
      && k.value < |rs| && Deliverable(rs[k.value], h)
      && forall i :: 0 <= i < k.value ==> !Deliverable(rs[i], h)
    ensures k.None? ==> forall i :: 0 <= i < |rs| ==> !Deliverable(rs[i], h)
    decreases |rs|
  {
    if |rs| == 0 then None
    else if Deliverable(rs[0], h) then Some(0)
    else match FirstDeliverable(rs[1..], h)
      case None => None
      case Some(k) => Some(k + 1)
  }

  /** GetLoadedImage: the linear search. The first processed, not yet
      retrieved request with the handle is marked retrieved and its image
      and flags are returned; with none, the result is empty and the list
      is unchanged. */
  method GetLoadedImage(s: Store, h: int) returns (data: ImageData, s': Store)
    ensures s'.counter == s.counter && |s'.requests| == |s.requests|
    ensures FirstDeliverable(s.requests, h).None? ==> data == NOTHING && s' == s
    ensures FirstDeliverable(s.requests, h).Some? ==>
      var k := FirstDeliverable(s.requests, h).value;
      && data == ImageData(s.requests[k].state.image, s.requests[k].state.outOfMemory, s.requests[k].state.exceptionError)
      && s'.requests == s.requests[k := s.requests[k].(deleted := true)]
    ensures (data, s') == Retrieve(s, h)
  {
    var i := 0;
    while i < |s.requests|
      invariant 0 <= i <= |s.requests|
      invariant forall j :: 0 <= j < i ==> !Deliverable(s.requests[j], h)
    {
      var q := s.requests[i];
      if q.processed && !q.deleted && q.handle == h {
        data := ImageData(q.state.image, q.state.outOfMemory, q.state.exceptionError);
        s' := Store(s.counter, s.requests[i := q.(deleted := true)]);
        FirstIsUnique(s.requests, h, i);
        return;
      }
      i := i + 1;
    }
    data := NOTHING;
    s' := s;
  }

  lemma {:induction false} FirstIsUnique(rs: seq<Request>, h: int, i: nat)
    requires i < |rs| && Deliverable(rs[i], h)
    requires forall j :: 0 <= j < i ==> !Deliverable(rs[j], h)
    ensures FirstDeliverable(rs, h) == Some(i)
    decreases i
  {
    if i > 0 {
      assert !Deliverable(rs[0], h);
      assert rs[1..][i - 1] == rs[i];
      FirstIsUnique(rs[1..], h, i - 1);
    }
  }

  /** The functional form of GetLoadedImage. */
  function Retrieve(s: Store, h: int): (r: (ImageData, Store))
    ensures r.1.counter == s.counter && |r.1.requests| == |s.requests|
  {
    match FirstDeliverable(s.requests, h)
    case None => (NOTHING, s)
    case Some(k) =>
      var q := s.requests[k];
      (ImageData(q.state.image, q.state.outOfMemory, q.state.exceptionError),
       Store(s.counter, s.requests[k := q.(deleted := true)]))
  }

  /** With distinct handles, a handle is delivered at most once: a second
      retrieval finds nothing. */
  lemma {:induction false} RetrieveAtMostOnce(s: Store, h: int)
    requires forall i, j :: 0 <= i < j < |s.requests| ==> s.requests[i].handle != s.requests[j].handle
    ensures Retrieve(Retrieve(s, h).1, h).0 == NOTHING
  {
    var s1 := Retrieve(s, h).1;
    match FirstDeliverable(s.requests, h)
    case None =>
    case Some(k) =>
      forall i | 0 <= i < |s1.requests| ensures !Deliverable(s1.requests[i], h) {
        if i != k {
          assert s1.requests[i] == s.requests[i];
          if i < k {
            assert s.requests[i].handle != s.requests[k].handle;
          } else {
            assert s.requests[k].handle != s.requests[i].handle;
          }
        }
      }
      assert FirstDeliverable(s1.requests, h).None?;
  }

  /** Retrieval changes nothing but the retrieved request's deleted mark. */
  lemma {:induction false} RetrieveOnlyMarks(s: Store, h: int)
    ensures var s1 := Retrieve(s, h).1;
      forall i :: 0 <= i < |s.requests| ==>
        s1.requests[i] == s.requests[i].(deleted := s1.requests[i].deleted)
        && (s1.requests[i].deleted != s.requests[i].deleted ==> Deliverable(s.requests[i], h))
  {
  }
}

=== FILE: sniffer.dfy ===
/** Header sniffing: the format of a file from its first 16 bytes, with a
    file-name extension lookup as fallback (GetImageFormat). */
module Sniffer {
  import opened Options
  import opened Formats

  /** Number of header bytes the sniffer reads. */
  const HEADER_SIZE: nat := 16

  // Signatures, written out byte by byte.
  const BMP_MAGIC: seq<byte> := [0x42, 0x4D]                                  // "BM"
  const JPEG_SOI: seq<byte> := [0xFF, 0xD8]                                   // ITU-T T.81 SOI marker
  const PNG_SIGNATURE: seq<byte> := [0x89, 0x50, 0x4E, 0x47, 0x0D, 0x0A, 0x1A, 0x0A]
  const GIF8: seq<byte> := [0x47, 0x49, 0x46, 0x38]                          // "GIF8"
  const GIF87A: seq<byte> := [0x47, 0x49, 0x46, 0x38, 0x37, 0x61]            // "GIF87a"
  const GIF89A: seq<byte> := [0x47, 0x49, 0x46, 0x38, 0x39, 0x61]            // "GIF89a"
  const RIFF: seq<byte> := [0x52, 0x49, 0x46, 0x46]                          // "RIFF"
  const WEBP_FOURCC: seq<byte> := [0x57, 0x45, 0x42, 0x50]                   // "WEBP"
  const JXL_CODESTREAM: seq<byte> := [0xFF, 0x0A]
  const JXL_CONTAINER: seq<byte> :=
    [0x00, 0x00, 0x00, 0x0C, 0x4A, 0x58, 0x4C, 0x20, 0x0D, 0x0A, 0x87, 0x0A]
  const FTYP: seq<byte> := [0x66, 0x74, 0x79, 0x70]                          // "ftyp"
  const BRAND_AVI: seq<byte> := [0x61, 0x76, 0x69]                           // "avi"
  const BRAND_HEI: seq<byte> := [0x68, 0x65, 0x69]                           // "hei"
  const BRAND_HEV: seq<byte> := [0x68, 0x65, 0x76]                           // "hev"
  const BRAND_CRX: seq<byte> := [0x63, 0x72, 0x78, 0x20]                     // "crx "
  const QOI_MAGIC: seq<byte> := [0x71, 0x6F, 0x69, 0x66]                     // "qoif"
  const PSD_MAGIC: seq<byte> := [0x38, 0x42, 0x50, 0x53]                     // "8BPS"
  const DDS_MAGIC: seq<byte> := [0x44, 0x44, 0x53, 0x20]                     // "DDS "
  const TIFF_LE: seq<byte> := [0x49, 0x49, 0x2A, 0x00]                       // "II*\0"
  const TIFF_BE: seq<byte> := [0x4D, 0x4D, 0x00, 0x2A]                       // "MM\0*"

  /** `pat` is present in `h` at offset `off`. */
  predicate At(h: seq<byte>, off: nat, pat: seq<byte>) {
    off + |pat| <= |h| && h[off..off + |pat|] == pat
  }

  /** Outcome of the magic-byte chain: a tag, or no decision yet. */
  datatype Magic = Tagged(format: Format) | Unmatched

  /** The ordered chain of magic-byte tests. An `ftyp` box whose brand is not
      recognised ends the chain undecided: the later QOI, PSD and DDS tests
      are else-branches of the `ftyp` test and are not reached. */
  function MagicTag(h: seq<byte>): (m: Magic)
    ensures |h| < 2 ==> m == Unmatched
    ensures m.Tagged? ==> m.format !in {TIFF, WIC, TGA, Unknown}
    ensures At(h, 0, BMP_MAGIC) ==> m == Tagged(WindowsBMP)
    ensures m == Tagged(QOI) || m == Tagged(PSD) || m == Tagged(DDS) ==> !At(h, 4, FTYP)
  {
    if At(h, 0, BMP_MAGIC) then Tagged(WindowsBMP)
    else if At(h, 0, JPEG_SOI) then Tagged(JPEG)
    else if At(h, 0, PNG_SIGNATURE) then Tagged(PNG)
    else if At(h, 0, GIF8) && (At(h, 4, [0x37]) || At(h, 4, [0x39])) && At(h, 5, [0x61]) then Tagged(GIF)
    else if At(h, 0, RIFF) && At(h, 8, WEBP_FOURCC) then Tagged(WEBP)
    else if At(h, 0, JXL_CODESTREAM) || At(h, 0, JXL_CONTAINER) then Tagged(JXL)
    else if At(h, 4, FTYP) then
      (if At(h, 8, BRAND_AVI) then Tagged(AVIF)
       else if At(h, 8, BRAND_HEI) || At(h, 8, BRAND_HEV) then Tagged(HEIF)
       else if At(h, 8, BRAND_CRX) then Tagged(CameraRAW)
       else Unmatched)
    else if At(h, 0, QOI_MAGIC) then Tagged(QOI)
    else if At(h, 0, PSD_MAGIC) then Tagged(PSD)
    else if At(h, 0, DDS_MAGIC) then Tagged(DDS)
    else Unmatched
  }

  /** The decision once at least two header bytes are available: magic bytes
      first, then the extension lookup, then the two late rules (bare `ftyp`
      box means AVIF, TIFF byte-order mark means TIFF). */
  function Classify(h: seq<byte>, extension: Format): (f: Format)
    ensures MagicTag(h).Tagged? ==> f == MagicTag(h).format
    ensures MagicTag(h).Unmatched? && extension != Unknown ==> f == extension
    ensures f == Unknown ==> MagicTag(h).Unmatched? && extension == Unknown
    ensures f == TIFF ==> extension == TIFF || At(h, 0, TIFF_LE) || At(h, 0, TIFF_BE)
  {
    match MagicTag(h)
    case Tagged(f) => f
    case Unmatched =>
      if extension != Unknown then extension
      else if At(h, 4, FTYP) then AVIF
      else if At(h, 0, TIFF_LE) || At(h, 0, TIFF_BE) then TIFF
      else Unknown
  }

  /** The bytes fread delivers: at most the first 16 of the file. */
  function HeaderOf(content: seq<byte>): (h: seq<byte>)
    ensures |h| <= HEADER_SIZE && h <= content
    ensures |content| >= HEADER_SIZE ==> |h| == HEADER_SIZE
  {
    if |content| <= HEADER_SIZE then content else content[..HEADER_SIZE]
  }

  /** The header buffer as the source compares it: the bytes read, followed by
      whatever `leftover` bytes the uninitialised 16-byte array held. */
  function Buffer(read: seq<byte>, leftover: seq<byte>): (b: seq<byte>)
    requires |read| <= HEADER_SIZE && |leftover| == HEADER_SIZE
    ensures |b| == HEADER_SIZE && read <= b
    ensures forall i :: |read| <= i < HEADER_SIZE ==> b[i] == leftover[i]
  {
    read + leftover[|read|..]
  }

  /** GetImageFormat as written. `content` is None when the file cannot be
      opened; `extension` is the file-name lookup (not part of this model, so
      it is a parameter); `leftover` is the prior content of the stack buffer. */
  function SniffAsWritten(content: Option<seq<byte>>, name: string, extension: string -> Format,
                          leftover: seq<byte>): (f: Format)
    requires |leftover| == HEADER_SIZE
    ensures content.None? || |content.value| < 2 ==> f == Unknown
  {
    match content
    case None => Unknown
    case Some(bytes) =>
      var read := HeaderOf(bytes);
      if |read| < 2 then Unknown else Classify(Buffer(read, leftover), extension(name))
  }

  /** GetImageFormat with every magic test confined to the bytes actually read
      (the corrected reading; the rest of the model uses this one). */
  function Sniff(content: Option<seq<byte>>, name: string, extension: string -> Format): (f: Format)
    ensures content.None? || |content.value| < 2 ==> f == Unknown
    ensures (content.Some? && |content.value| >= 2 && MagicTag(HeaderOf(content.value)).Tagged?) ==>
              f == MagicTag(HeaderOf(content.value)).format
    ensures (content.Some? && |content.value| >= 2 && MagicTag(HeaderOf(content.value)).Unmatched?
             && extension(name) != Unknown) ==> f == extension(name)
  {
    match content
    case None => Unknown
    case Some(bytes) =>
      var read := HeaderOf(bytes);
      if |read| < 2 then Unknown else Classify(read, extension(name))
  }

  // ---------------------------------------------------------------------------
  // Reference definition: the same chain as a table of rules, first match wins.

  datatype Pattern = Pattern(offset: nat, bytes: seq<byte>)

  /** What a matching rule decides: a tag, or a brand lookup at offset 8. */
  datatype Verdict = Tag(format: Format) | Brands(table: seq<(Pattern, Format)>)

  /** A rule matches when every pattern of one of its alternatives is present. */
  datatype Rule = Rule(alternatives: seq<seq<Pattern>>, verdict: Verdict)

  const MAGIC_RULES: seq<Rule> := [
    Rule([[Pattern(0, BMP_MAGIC)]], Tag(WindowsBMP)),
    Rule([[Pattern(0, JPEG_SOI)]], Tag(JPEG)),
    Rule([[Pattern(0, PNG_SIGNATURE)]], Tag(PNG)),
    Rule([[Pattern(0, GIF87A)], [Pattern(0, GIF89A)]], Tag(GIF)),
    Rule([[Pattern(0, RIFF), Pattern(8, WEBP_FOURCC)]], Tag(WEBP)),
    Rule([[Pattern(0, JXL_CODESTREAM)], [Pattern(0, JXL_CONTAINER)]], Tag(JXL)),
    Rule([[Pattern(4, FTYP)]], Brands([(Pattern(8, BRAND_AVI), AVIF), (Pattern(8, BRAND_HEI), HEIF),
                                       (Pattern(8, BRAND_HEV), HEIF), (Pattern(8, BRAND_CRX), CameraRAW)])),
    Rule([[Pattern(0, QOI_MAGIC)]], Tag(QOI)),
    Rule([[Pattern(0, PSD_MAGIC)]], Tag(PSD)),
    Rule([[Pattern(0, DDS_MAGIC)]], Tag(DDS))
  ]

  predicate AllPresent(h: seq<byte>, ps: seq<Pattern>) {
    |ps| == 0 || (At(h, ps[0].offset, ps[0].bytes) && AllPresent(h, ps[1..]))
  }

  predicate AnyAlternative(h: seq<byte>, alts: seq<seq<Pattern>>) {
    |alts| > 0 && (AllPresent(h, alts[0]) || AnyAlternative(h, alts[1..]))
  }

  function FirstBrand(h: seq<byte>, table: seq<(Pattern, Format)>): Magic {
    if |table| == 0 then Unmatched
    else if At(h, table[0].0.offset, table[0].0.bytes) then Tagged(table[0].1)
    else FirstBrand(h, table[1..])
  }

  function Decide(h: seq<byte>, v: Verdict): Magic {
    match v
    case Tag(f) => Tagged(f)
    case Brands(t) => FirstBrand(h, t)
  }

  function TableTag(h: seq<byte>, rules: seq<Rule>): Magic {
    if |rules| == 0 then Unmatched
    else if AnyAlternative(h, rules[0].alternatives) then Decide(h, rules[0].verdict)
    else TableTag(h, rules[1..])
  }

  /** "GIF8", then '7' or '9', then 'a' is the same test as GIF87a or GIF89a. */
  lemma GifTestsAgree(h: seq<byte>)
    ensures (At(h, 0, GIF8) && (At(h, 4, [0x37]) || At(h, 4, [0x39])) && At(h, 5, [0x61]))
        <==> (At(h, 0, GIF87A) || At(h, 0, GIF89A))
  {
    if At(h, 0, GIF87A) {
      assert h[0..4] == h[0..6][0..4];
      assert h[4..5] == [h[4]] && h[5..6] == [h[5]];
    }
    if At(h, 0, GIF89A) {
      assert h[0..4] == h[0..6][0..4];
      assert h[4..5] == [h[4]] && h[5..6] == [h[5]];
    }
    if At(h, 0, GIF8) && (At(h, 4, [0x37]) || At(h, 4, [0x39])) && At(h, 5, [0x61]) {
      assert h[0..6] == h[0..4] + h[4..5] + h[5..6];
    }
  }

  lemma OneAlternative(h: seq<byte>, p: Pattern)
    ensures AnyAlternative(h, [[p]]) == At(h, p.offset, p.bytes)
  {
    assert [[p]][1..] == [] && [p][1..] == [];
    assert !AnyAlternative(h, []) && AllPresent(h, []);
    assert AllPresent(h, [p]) == At(h, p.offset, p.bytes);
  }

  lemma TwoAlternatives(h: seq<byte>, p: Pattern, q: Pattern)
    ensures AnyAlternative(h, [[p], [q]]) == (At(h, p.offset, p.bytes) || At(h, q.offset, q.bytes))
  {
    assert [[p], [q]][1..] == [[q]];
    assert [[p], [q]][0] == [p] && [p][1..] == [];
    assert AllPresent(h, []);
    assert AllPresent(h, [p]) == At(h, p.offset, p.bytes);
    OneAlternative(h, p);
    OneAlternative(h, q);
  }

  lemma BothPatterns(h: seq<byte>, p: Pattern, q: Pattern)
    ensures AnyAlternative(h, [[p, q]]) == (At(h, p.offset, p.bytes) && At(h, q.offset, q.bytes))
  {
    assert [[p, q]][1..] == [] && [p, q][1..] == [q] && [q][1..] == [];
    assert !AnyAlternative(h, []) && AllPresent(h, []);
    assert AllPresent(h, [q]) == At(h, q.offset, q.bytes);
    assert AllPresent(h, [p, q]) == (At(h, p.offset, p.bytes) && AllPresent(h, [q]));
  }

  lemma FtypBrands(h: seq<byte>)
    ensures FirstBrand(h, MAGIC_RULES[6].verdict.table) ==
      (if At(h, 8, BRAND_AVI) then Tagged(AVIF)
       else if At(h, 8, BRAND_HEI) || At(h, 8, BRAND_HEV) then Tagged(HEIF)
       else if At(h, 8, BRAND_CRX) then Tagged(CameraRAW)
       else Unmatched)
  {
    var t := MAGIC_RULES[6].verdict.table;
    assert t[0] == (Pattern(8, BRAND_AVI), AVIF) && t[1..][0] == (Pattern(8, BRAND_HEI), HEIF);
    assert t[1..][1..][0] == (Pattern(8, BRAND_HEV), HEIF) && t[1..][1..][1..][0] == (Pattern(8, BRAND_CRX), CameraRAW);
    assert t[1..][1..][1..][1..] == [];
    var t1, t2, t3 := t[1..], t[1..][1..], t[1..][1..][1..];
    assert FirstBrand(h, t3) == (if At(h, 8, BRAND_CRX) then Tagged(CameraRAW) else FirstBrand(h, t3[1..]));
    assert FirstBrand(h, t2) == (if At(h, 8, BRAND_HEV) then Tagged(HEIF) else FirstBrand(h, t3));
    assert FirstBrand(h, t1) == (if At(h, 8, BRAND_HEI) then Tagged(HEIF) else FirstBrand(h, t2));
  }

  /** One step of the table: the first rule decides, or the rest of the table does. */
  lemma TableStep(h: seq<byte>, k: nat)
    requires k < |MAGIC_RULES|
    ensures TableTag(h, MAGIC_RULES[k..]) ==
      if AnyAlternative(h, MAGIC_RULES[k].alternatives) then Decide(h, MAGIC_RULES[k].verdict)
      else TableTag(h, MAGIC_RULES[k + 1..])
  {
    assert MAGIC_RULES[k..][0] == MAGIC_RULES[k];
    assert MAGIC_RULES[k..][1..] == MAGIC_RULES[k + 1..];
  }

  /** The hand-written chain and the rule table classify every header alike. */
  lemma {:induction false} ChainMatchesTable(h: seq<byte>)
    ensures MagicTag(h) == TableTag(h, MAGIC_RULES)
  {
    GifTestsAgree(h);
    FtypBrands(h);
    var r := MAGIC_RULES;
    assert r[10..] == [];
    OneAlternative(h, Pattern(0, BMP_MAGIC));
    OneAlternative(h, Pattern(0, JPEG_SOI));
    OneAlternative(h, Pattern(0, PNG_SIGNATURE));
    TwoAlternatives(h, Pattern(0, GIF87A), Pattern(0, GIF89A));
    BothPatterns(h, Pattern(0, RIFF), Pattern(8, WEBP_FOURCC));
    TwoAlternatives(h, Pattern(0, JXL_CODESTREAM), Pattern(0, JXL_CONTAINER));
    OneAlternative(h, Pattern(4, FTYP));
    OneAlternative(h, Pattern(0, QOI_MAGIC));
    OneAlternative(h, Pattern(0, PSD_MAGIC));
    OneAlternative(h, Pattern(0, DDS_MAGIC));
    TableStep(h, 9);
    TableStep(h, 8);
    TableStep(h, 7);
    TableStep(h, 6);
    TableStep(h, 5);
    TableStep(h, 4);
    TableStep(h, 3);
    TableStep(h, 2);
    TableStep(h, 1);
    TableStep(h, 0);
    assert r[0..] == r;
  }

  // ---------------------------------------------------------------------------
  // Properties of the classification.

  /** A header that matches no magic rule takes a known extension's tag, so
      a RAW file in a TIFF container is classified by its extension. Only
      with no known extension do the bare-`ftyp` and TIFF rules apply. */
  lemma {:induction false} ExtensionBeforeLateRules(content: seq<byte>, name: string, extension: string -> Format)
    requires |content| >= 2 && MagicTag(HeaderOf(content)).Unmatched?
    ensures extension(name) != Unknown ==> Sniff(Some(content), name, extension) == extension(name)
    ensures extension(name) == Unknown ==>
      Sniff(Some(content), name, extension) ==
        (if At(HeaderOf(content), 4, FTYP) then AVIF
         else if At(HeaderOf(content), 0, TIFF_LE) || At(HeaderOf(content), 0, TIFF_BE) then TIFF
         else Unknown)
  {
  }

  /** TIFF is the verdict exactly when no magic rule matched and either the
      extension says TIFF, or there is no known extension, no `ftyp` box and a
      TIFF byte-order mark. */
  lemma {:induction false} TiffExactly(content: seq<byte>, name: string, extension: string -> Format)
    requires |content| >= 2
    ensures var h := HeaderOf(content);
      Sniff(Some(content), name, extension) == TIFF <==>
        (MagicTag(h).Unmatched? &&
         (extension(name) == TIFF ||
          (extension(name) == Unknown && !At(h, 4, FTYP) && (At(h, 0, TIFF_LE) || At(h, 0, TIFF_BE)))))
  {
    var h := HeaderOf(content);
    if MagicTag(h).Tagged? {
      assert MagicTag(h).format != TIFF;
    }
  }

  /** A Canon CR2 header (TIFF byte order, no other magic) is a camera RAW
      file when the extension says so, and TIFF without an extension. */
  lemma RawInTiffContainer(name: string)
    ensures var cr2: seq<byte> := [0x49, 0x49, 0x2A, 0x00, 0x10, 0x00, 0x00, 0x00, 0x43, 0x52, 0x02, 0x00];
      Sniff(Some(cr2), name, _ => CameraRAW) == CameraRAW &&
      Sniff(Some(cr2), name, _ => Unknown) == TIFF
  {
    var cr2: seq<byte> := [0x49, 0x49, 0x2A, 0x00, 0x10, 0x00, 0x00, 0x00, 0x43, 0x52, 0x02, 0x00];
    assert HeaderOf(cr2) == cr2;
    assert cr2[0..2][0] != BMP_MAGIC[0] && cr2[0..2][0] != JPEG_SOI[0] && cr2[0..2][0] != JXL_CODESTREAM[0];
    assert cr2[0..8][0] != PNG_SIGNATURE[0] && cr2[0..4][0] != GIF8[0] && cr2[0..4][0] != RIFF[0];
    assert cr2[0..12][0] != JXL_CONTAINER[0] && cr2[4..8][0] != FTYP[0];
    assert cr2[0..4][0] != QOI_MAGIC[0] && cr2[0..4][0] != PSD_MAGIC[0] && cr2[0..4][0] != DDS_MAGIC[0];
    assert cr2[0..4] == TIFF_LE;
  }

  /** An `ftyp` box with an unknown brand shadows the QOI test: a header that
      starts "qoif" and has "ftyp" at offset 4 is not QOI. */
  lemma FtypShadowsQoi()
    ensures var h: seq<byte> := [0x71, 0x6F, 0x69, 0x66, 0x66, 0x74, 0x79, 0x70, 0x6D, 0x69, 0x66, 0x31];
      At(h, 0, QOI_MAGIC) && Sniff(Some(h), [], _ => Unknown) == AVIF
  {
    var h: seq<byte> := [0x71, 0x6F, 0x69, 0x66, 0x66, 0x74, 0x79, 0x70, 0x6D, 0x69, 0x66, 0x31];
    assert HeaderOf(h) == h;
    assert h[0..4] == QOI_MAGIC && h[4..8] == FTYP;
    assert h[0..2][0] != BMP_MAGIC[0] && h[0..2][0] != JPEG_SOI[0] && h[0..2][0] != JXL_CODESTREAM[0];
    assert h[0..8][0] != PNG_SIGNATURE[0] && h[0..4][0] != GIF8[0] && h[0..4][0] != RIFF[0];
    assert h[0..12][0] != JXL_CONTAINER[0];
    assert h[8..11][0] != BRAND_AVI[0] && h[8..11][0] != BRAND_HEI[0] && h[8..11][0] != BRAND_HEV[0];
    assert h[8..12][0] != BRAND_CRX[0];
  }

  // ---------------------------------------------------------------------------
  // The uninitialised header buffer.

  /** Patterns reach at most byte 11, so once 12 bytes are read the leftover
      bytes never matter and the as-written sniffer agrees with the corrected one. */
  lemma {:induction false} LeftoverIrrelevantForLongFiles(content: seq<byte>, name: string,
                                                          extension: string -> Format, leftover: seq<byte>)
    requires |leftover| == HEADER_SIZE && |content| >= 12
    ensures SniffAsWritten(Some(content), name, extension, leftover) == Sniff(Some(content), name, extension)
  {
    var read := HeaderOf(content);
    var b := Buffer(read, leftover);
    assert |read| >= 12 && |b| >= 12;
    assert b[..12] == read[..12];
    forall off: nat, pat: seq<byte> | off + |pat| <= 12
      ensures At(b, off, pat) == At(read, off, pat)
    {
      SliceWithinPrefix(b, 12, off, off + |pat|);
      SliceWithinPrefix(read, 12, off, off + |pat|);
    }
  }

  lemma {:induction false} SliceWithinPrefix(s: seq<byte>, n: nat, i: nat, j: nat)
    requires i <= j <= n <= |s|
    ensures s[i..j] == s[..n][i..j]
  {
    forall k | 0 <= k < j - i ensures s[i..j][k] == s[..n][i..j][k] {
      assert s[i..j][k] == s[i + k];
      assert s[..n][i..j][k] == s[..n][i + k];
    }
  }

  /** A stack buffer filled with 0x01 bytes, a value that ends no signature. */
  const NEUTRAL: seq<byte> := seq(HEADER_SIZE, _ => 1)

  /** A pattern whose last byte is not 0x01 is found in the neutral buffer
      exactly when it is found in the bytes read. */
  lemma {:induction false} AtNeutral(read: seq<byte>, off: nat, pat: seq<byte>)
    requires |read| <= HEADER_SIZE && 0 < |pat| && off + |pat| <= HEADER_SIZE && pat[|pat| - 1] != 1
    ensures At(Buffer(read, NEUTRAL), off, pat) == At(read, off, pat)
  {
    var b := Buffer(read, NEUTRAL);
    var end := off + |pat|;
    if end <= |read| {
      forall k | 0 <= k < |pat| ensures b[off..end][k] == read[off..end][k] {
        assert b[off + k] == read[off + k];
      }
      assert b[off..end] == read[off..end];
    } else {
      assert b[end - 1] == NEUTRAL[end - 1] == 1;
      assert b[off..end][|pat| - 1] == b[end - 1];
    }
  }

  /** The corrected sniffer is the program's own classification whenever the
      stack buffer happens to hold 0x01 bytes: no signature ends in 0x01, so
      an unfilled byte never completes a match. */
  lemma {:induction false} NeutralBufferAgrees(content: Option<seq<byte>>, name: string, extension: string -> Format)
    ensures Sniff(content, name, extension) == SniffAsWritten(content, name, extension, NEUTRAL)
  {
    if content.Some? && |HeaderOf(content.value)| >= 2 {
      var read := HeaderOf(content.value);
      var b := Buffer(read, NEUTRAL);
      AtNeutral(read, 0, BMP_MAGIC);
      AtNeutral(read, 0, JPEG_SOI);
      AtNeutral(read, 0, PNG_SIGNATURE);
      AtNeutral(read, 0, GIF8);
      AtNeutral(read, 4, [0x37]);
      AtNeutral(read, 4, [0x39]);
      AtNeutral(read, 5, [0x61]);
      AtNeutral(read, 0, RIFF);
      AtNeutral(read, 8, WEBP_FOURCC);
      AtNeutral(read, 0, JXL_CODESTREAM);
      AtNeutral(read, 0, JXL_CONTAINER);
      AtNeutral(read, 4, FTYP);
      AtNeutral(read, 8, BRAND_AVI);
      AtNeutral(read, 8, BRAND_HEI);
      AtNeutral(read, 8, BRAND_HEV);
      AtNeutral(read, 8, BRAND_CRX);
      AtNeutral(read, 0, QOI_MAGIC);
      AtNeutral(read, 0, PSD_MAGIC);
      AtNeutral(read, 0, DDS_MAGIC);
      AtNeutral(read, 0, TIFF_LE);
      AtNeutral(read, 0, TIFF_BE);
      assert MagicTag(b) == MagicTag(read);
      assert Classify(b, extension(name)) == Classify(read, extension(name));
    }
  }

  /** A four-byte file "RIFF" is classified from stale bytes 8..11 of the
      buffer: with "WEBP" left there it is taken for WEBP, while the bytes
      actually read decide nothing and the extension decides. */
  lemma {:induction false} ShortFileReadsLeftover()
    ensures var leftover: seq<byte> := [0, 0, 0, 0, 0, 0, 0, 0, 0x57, 0x45, 0x42, 0x50, 0, 0, 0, 0];
      var riff: seq<byte> := [0x52, 0x49, 0x46, 0x46];
      SniffAsWritten(Some(riff), [], _ => Unknown, leftover) == WEBP &&
      Sniff(Some(riff), [], _ => Unknown) == Unknown
  {
    ShortRiffAsWritten();
    ShortRiffCorrected();
  }

  lemma {:induction false} ShortRiffAsWritten()
    ensures var leftover: seq<byte> := [0, 0, 0, 0, 0, 0, 0, 0, 0x57, 0x45, 0x42, 0x50, 0, 0, 0, 0];
      SniffAsWritten(Some([0x52, 0x49, 0x46, 0x46]), [], _ => Unknown, leftover) == WEBP
  {
    var leftover: seq<byte> := [0, 0, 0, 0, 0, 0, 0, 0, 0x57, 0x45, 0x42, 0x50, 0, 0, 0, 0];
    var riff: seq<byte> := [0x52, 0x49, 0x46, 0x46];
    assert HeaderOf(riff) == riff;
    var b := Buffer(riff, leftover);
    assert b == [0x52, 0x49, 0x46, 0x46, 0, 0, 0, 0, 0x57, 0x45, 0x42, 0x50, 0, 0, 0, 0];
    assert b[0..2][0] != BMP_MAGIC[0] && b[0..2][0] != JPEG_SOI[0];
    assert !At(b, 0, PNG_SIGNATURE) by { assert b[0..8][0] != PNG_SIGNATURE[0]; }
    assert !At(b, 0, GIF8) by { assert b[0..4][0] != GIF8[0]; }
    assert At(b, 0, RIFF) && At(b, 8, WEBP_FOURCC);
    assert MagicTag(b) == Tagged(WEBP);
  }

  lemma {:induction false} ShortRiffCorrected()
    ensures Sniff(Some([0x52, 0x49, 0x46, 0x46]), [], _ => Unknown) == Unknown
  {
    var riff: seq<byte> := [0x52, 0x49, 0x46, 0x46];
    assert HeaderOf(riff) == riff;
    assert riff[0..2][0] != BMP_MAGIC[0] && riff[0..2][0] != JPEG_SOI[0] && riff[0..2][0] != JXL_CODESTREAM[0];
    assert !At(riff, 0, GIF8) by { assert riff[0..4][0] != GIF8[0]; }
    assert !At(riff, 0, QOI_MAGIC) by { assert riff[0..4][0] != QOI_MAGIC[0]; }
    assert !At(riff, 0, PSD_MAGIC) by { assert riff[0..4][0] != PSD_MAGIC[0]; }
    assert !At(riff, 0, DDS_MAGIC) by { assert riff[0..4][0] != DDS_MAGIC[0]; }
    assert !At(riff, 0, TIFF_LE) by { assert riff[0..4][0] != TIFF_LE[0]; }
    assert !At(riff, 0, TIFF_BE) by { assert riff[0..4][0] != TIFF_BE[0]; }
    assert MagicTag(riff) == Unmatched;
    assert Classify(riff, Unknown) == Unknown;
  }
}

=== FILE: subsequences.dfy ===
/** Order-preserving selection from a sequence: the shape every reader's
    decoder calls take with respect to its fallback chain. */
module Subsequences {

  /** `a` can be obtained from `b` by deleting elements. */
  predicate Subseq<T(==)>(a: seq<T>, b: seq<T>)
    decreases |b|
  {
    |a| == 0 || (|b| > 0 && ((a[0] == b[0] && Subseq(a[1..], b[1..])) || Subseq(a, b[1..])))
  }

  lemma {:induction false} PrefixIsSubseq<T>(a: seq<T>, b: seq<T>)
    requires a <= b
    ensures Subseq(a, b)
    decreases |b|
  {
    if |a| > 0 {
      assert a[1..] <= b[1..];
      PrefixIsSubseq(a[1..], b[1..]);
    }
  }

  /** Elements in front of `y` may all be skipped. */
  lemma {:induction false} SkipFront<T>(a: seq<T>, x: seq<T>, y: seq<T>)
    requires Subseq(a, y)
    ensures Subseq(a, x + y)
    decreases |x|
  {
    if |x| == 0 {
      assert x + y == y;
    } else if |a| > 0 {
      assert (x + y)[1..] == x[1..] + y;
      SkipFront(a, x[1..], y);
      assert Subseq(a, (x + y)[1..]);
    }
  }

  /** Subsequences of the two halves make a subsequence of the whole. */
  lemma {:induction false} AppendSubseq<T>(a: seq<T>, b: seq<T>, x: seq<T>, y: seq<T>)
    requires Subseq(a, x) && Subseq(b, y)
    ensures Subseq(a + b, x + y)
    decreases |x|
  {
    if |a| == 0 {
      assert a + b == b;
      SkipFront(b, x, y);
    } else {
      assert |x| > 0;
      assert (a + b)[0] == a[0] && (a + b)[1..] == a[1..] + b;
      assert (x + y)[0] == x[0] && (x + y)[1..] == x[1..] + y;
      if a[0] == x[0] && Subseq(a[1..], x[1..]) {
        AppendSubseq(a[1..], b, x[1..], y);
      } else {
        AppendSubseq(a, b, x[1..], y);
      }
    }
  }
}

=== FILE: worker.dfy ===
/** The work item handler (ProcessRequest): release requests, and load
    requests as sniff, cache invalidation, reader, post-load processing. */
module Worker {
  import opened Options
  import opened Formats
  import Sniffer
  import opened Decoding
  import opened DecoderCache
  import opened GdiPlus
  import opened Readers
  import opened Geometry
  import opened Requests
  import opened Subsequences

  /** What the work thread hands to ProcessRequest: a load request, or a
      release request (type tag ReleaseFileRequest) carrying only a file name. */
  datatype WorkItem = LoadItem(request: Request) | ReleaseItem(fileName: string)

  /** The cache slot a format's branch leaves alone before reading; every
      other slot is deleted. Formats with a reader of their own and no
      cached decoder keep nothing. */
  function KeptSlot(f: Format): (k: Option<Slot>)
    ensures k.None? <==> f in {JPEG, WindowsBMP, TGA, HEIF, PSD, CameraRAW, QOI, WIC, DDS}
    ensures k.Some? ==> Resident(f) == {k.value}
  {
    match f
    case WEBP => Some(WebpSlot)
    case PNG => Some(PngSlot)
    case JXL => Some(JxlSlot)
    case AVIF => Some(AvifSlot)
    case GIF => Some(GdiBitmap)
    case TIFF => Some(GdiBitmap)
    case Unknown => Some(GdiBitmap)
    case _ => None
  }

  /** The reader each format is dispatched to; GIF, TIFF and Unknown take
      the default branch, GDI+ on the file. Only the format's own family of
      slots can change, and only to empty or to the requested name; only the
      readers without a catch block let an exception escape; only the
      readers whose catch block sets it can set ExceptionError. */
  function Dispatch(f: Format, c: Caches, st: LoadState, name: string, frame: int, env: Env): (s: Step)
    ensures forall t :: t !in Resident(f) ==> Get(s.caches, t) == Get(c, t)
    ensures forall t :: t in Resident(f) ==>
      Get(s.caches, t) == "" || Get(s.caches, t) == name || (KeptSlot(f).None? && Get(s.caches, t) == Get(c, t))
    ensures s.thrown ==> f in {WindowsBMP, TGA, PSD, DDS, GIF, TIFF, Unknown}
    ensures s.thrown && st.image.None? ==> s.state.image.None?
    ensures f !in {JPEG, PNG, JXL, AVIF, HEIF, QOI} ==> s.state.exceptionError == st.exceptionError
  {
    match f
    case JPEG => ReadJpeg(c, st, name, frame, env)
    case WindowsBMP => ReadBmp(c, st, name, frame, env)
    case TGA => ReadTga(c, st, env)
    case WEBP => ReadWebp(c, st, name, env)
    case PNG => ReadPng(c, st, name, env)
    case JXL => ReadJxl(c, st, name, env)
    case AVIF => ReadAvif(c, st, name, env)
    case HEIF => ReadHeif(c, st, env)
    case PSD => ReadPsd(c, st, env)
    case CameraRAW => ReadRaw(c, st, env)
    case QOI => ReadQoi(c, st, env)
    case WIC => ReadWic(c, st, env)
    case DDS => ReadDds(c, st, env)
    case _ => ReadGdiFile(c, st, name, frame, env)
  }

  /** The fallback chain of each format: the decoders that may be tried, in
      the order they may be tried. */
  function Chain(f: Format, settings: Settings): seq<Decoder> {
    match f
    case JPEG => if settings.preferGdiPlus then [GdiStream, TurboJpeg, GdiFile] else [TurboJpeg, GdiFile]
    case WindowsBMP => [BmpReader, GdiFile]
    case TGA => [TgaReader]
    case WEBP => [WebpReader]
    case PNG => [PngReader, GdiStream]
    case JXL => [JxlReader]
    case AVIF => [AvifReader, HeifReader]
    case HEIF => [HeifReader]
    case PSD => [PsdImage, PsdThumb]
    case CameraRAW => RawOrder(settings.displayFullSizeRaw)
    case QOI => [QoiReader]
    case WIC => [WicLoader]
    case DDS => [DdsReader]
    case _ => [GdiFile]
  }

  /** The slots that may name a file after loading a file of format `f`. */
  function Resident(f: Format): set<Slot> {
    match f
    case WEBP => {WebpSlot}
    case PNG => {PngSlot}
    case JXL => {JxlSlot}
    case AVIF => {AvifSlot}
    case JPEG => {GdiBitmap}
    case WindowsBMP => {GdiBitmap}
    case GIF => {GdiBitmap}
    case TIFF => {GdiBitmap}
    case Unknown => {GdiBitmap}
    case _ => {}
  }

  /** A reader's calls follow the chain, and an image comes from the last call. */
  predicate FollowsChain(s: Step, chain: seq<Decoder>) {
    && Subseq(s.calls, chain)
    && (s.state.image.Some? ==> |s.calls| > 0 && s.state.image.value == Image(s.calls[|s.calls| - 1]))
  }

  // ---------------------------------------------------------------------------
  // Processing one item.

  /** Everything a load consults besides the request and the cache: the file
      and codecs, the extension lookup, and what post-load processing finds. */
  datatype World = World(env: Env, extension: string -> Format, facts: AfterLoadFacts)

  /** The outcome of a load: the cache, the request, the sniffed format,
      whether the reader produced an image (`rq.Image != NULL` after the
      switch), whether an exception escaped the reader, and its decoder calls. */
  datatype LoadResult = LoadResult(caches: Caches, request: Request, format: Format, decoded: bool,
                                   escaped: bool, calls: seq<Decoder>)

  /** The format GetImageFormat assigns: the header of the file, when it
      opens, and otherwise nothing. */
  function FormatOf(name: string, w: World): Format {
    Sniffer.Sniff(if w.env.file.opens then Some(w.env.file.header) else None, name, w.extension)
  }

  /** The reading half of a load: sniff the format, invalidate the other
      families' cached decoders, and run the format's reader. */
  function ReadStage(c: Caches, q: Request, w: World): (s: Step)
    ensures forall t :: Get(s.caches, t) != "" ==> Get(s.caches, t) == q.fileName && t in Resident(FormatOf(q.fileName, w))
    ensures AtMostOneLive(s.caches)
    ensures s.thrown ==> FormatOf(q.fileName, w) in {WindowsBMP, TGA, PSD, DDS, GIF, TIFF, Unknown}
    ensures s.thrown && q.state.image.None? ==> s.state.image.None?
    ensures s.state.exceptionError != q.state.exceptionError ==> FormatOf(q.fileName, w) in {JPEG, PNG, JXL, AVIF, HEIF, QOI}
    ensures q.state.image.None? ==> FollowsChain(s, Chain(FormatOf(q.fileName, w), w.env.settings))
  {
    var f := FormatOf(q.fileName, w);
    var c1 := KeepOnly(c, KeptSlot(f));
    InvalidationKeepsOwnFamily(c, f);
    CallsFollowChain(f, c1, q.state, q.fileName, q.frameIndex, w.env);
    var s := Dispatch(f, c1, q.state, q.fileName, q.frameIndex, w.env);
    LiveSlotsAreOwn(f, c1, s.caches, q.fileName);
    s
  }

  /** A load request. An exception no reader catches ends the handler
      (`escaped`) with the request as the reader left it. Otherwise, when the
      reader produced an image, post-load processing runs; when it fails,
      the image is discarded and OutOfMemory is set. */
  function ProcessLoad(c: Caches, q: Request, w: World): (r: LoadResult)
    ensures r.format == FormatOf(q.fileName, w)
    ensures r.request.fileName == q.fileName && r.request.frameIndex == q.frameIndex
    ensures r.request.handle == q.handle
    ensures r.request.processed == q.processed && r.request.deleted == q.deleted
    // The cache afterwards: only the loaded file, only in its format's family.
    ensures forall s :: Get(r.caches, s) != "" ==> Get(r.caches, s) == q.fileName && s in Resident(r.format)
    ensures AtMostOneLive(r.caches)
    // Without an escaped exception, an image is delivered exactly when the
    // reader produced one and post-load processing succeeded.
    ensures !r.escaped ==>
      (r.request.state.image.Some? <==> r.decoded && ProcessAfterLoad(q.params, w.facts).ok)
    ensures r.escaped && q.state.image.None? ==> r.request.state.image.None?
    ensures r.decoded && !r.escaped && !ProcessAfterLoad(q.params, w.facts).ok ==> r.request.state.outOfMemory
    ensures r.decoded && !r.escaped ==> r.request.params == ProcessAfterLoad(q.params, w.facts).params
    ensures !r.decoded || r.escaped ==> r.request.params == q.params
    // Which readers can let an exception escape or set ExceptionError.
    ensures r.escaped ==> r.format in {WindowsBMP, TGA, PSD, DDS, GIF, TIFF, Unknown}
    ensures r.request.state.exceptionError != q.state.exceptionError ==> r.format in {JPEG, PNG, JXL, AVIF, HEIF, QOI}
    // Starting from a request without an image, the decoders follow the
    // format's fallback chain, and the reader's image is the last decoder's.
    ensures q.state.image.None? ==> Subseq(r.calls, Chain(r.format, w.env.settings))
    ensures q.state.image.None? && r.request.state.image.Some? ==>
      |r.calls| > 0 && r.request.state.image.value == Image(r.calls[|r.calls| - 1])
  {
    var s := ReadStage(c, q, w);
    var a := ProcessAfterLoad(q.params, w.facts);
    LoadResult(s.caches, AfterRead(q, s, a), FormatOf(q.fileName, w), s.state.image.Some?, s.thrown, s.calls)
  }

  /** The request once its reader has run: as the reader left it after an
      escaped exception or without an image; otherwise with the post-load
      parameters, and with the image discarded and OutOfMemory set when
      post-load processing failed. */
  function AfterRead(q: Request, s: Step, a: AfterLoad): (r: Request)
    ensures r.fileName == q.fileName && r.frameIndex == q.frameIndex && r.handle == q.handle
    ensures r.processed == q.processed && r.deleted == q.deleted
    ensures s.thrown || s.state.image.None? ==> r.state == s.state && r.params == q.params
    ensures !s.thrown && s.state.image.Some? ==> r.params == a.params
    ensures !s.thrown ==> (r.state.image.Some? <==> s.state.image.Some? && a.ok)
    ensures !s.thrown && s.state.image.Some? && !a.ok ==> r.state.outOfMemory
    ensures r.state.image.Some? ==> r.state.image == s.state.image
    ensures r.state.exceptionError == s.state.exceptionError
  {
    if s.thrown || s.state.image.None? then q.(state := s.state)
    else
      var st := if a.ok then s.state else s.state.(image := None, outOfMemory := true);
      q.(state := st, params := a.params)
  }

  /** ProcessRequest on one item. A release request deletes exactly the
      cached decoders naming its file and keeps at most one family live. A
      load request is marked processed (by the work thread, once the handler
      returns), keeps its identity, and leaves at most one family live, all
      naming the loaded file, whatever the cache held before. */
  function ProcessItem(c: Caches, item: WorkItem, w: World): (r: (Caches, WorkItem))
    ensures item.ReleaseItem? ==>
      && r.1 == item
      && (forall s :: Get(r.0, s) == (if Get(c, s) == item.fileName then "" else Get(c, s)))
      && (AtMostOneLive(c) ==> AtMostOneLive(r.0))
    ensures item.LoadItem? ==>
      && r.1.LoadItem? && r.1.request.processed && r.1.request.deleted == item.request.deleted
      && r.1.request.fileName == item.request.fileName && r.1.request.frameIndex == item.request.frameIndex
      && r.1.request.handle == item.request.handle
      && AtMostOneLive(r.0)
      && (forall s :: Get(r.0, s) != "" ==> Get(r.0, s) == item.request.fileName)
  {
    match item
    case ReleaseItem(name) => (Release(c, name), item)
    case LoadItem(q) =>
      var l := ProcessLoad(c, q, w);
      (l.caches, LoadItem(l.request.(processed := true)))
  }

  // ---------------------------------------------------------------------------
  // Properties.

  /** Before reading, every slot but the format's own is empty. */
  lemma {:induction false} InvalidationKeepsOwnFamily(c: Caches, f: Format)
    ensures forall s :: Get(KeepOnly(c, KeptSlot(f)), s) != "" ==> s in Resident(f) && KeptSlot(f) == Some(s)
    ensures f in {JPEG, WindowsBMP, TGA, HEIF, PSD, CameraRAW, QOI, WIC, DDS} ==> KeepOnly(c, KeptSlot(f)) == EMPTY
  {
    var k := KeepOnly(c, KeptSlot(f));
    if KeptSlot(f).None? {
      assert k.gdi == Get(k, GdiBitmap) && k.webp == Get(k, WebpSlot) && k.png == Get(k, PngSlot);
      assert k.jxl == Get(k, JxlSlot) && k.avif == Get(k, AvifSlot);
    }
  }

  /** After invalidation and a reader, every live slot names the requested
      file and belongs to the format's family. */
  lemma {:induction false} LiveSlotsAreOwn(f: Format, c1: Caches, after: Caches, name: string)
    requires forall s :: Get(c1, s) != "" ==> s in Resident(f) && KeptSlot(f) == Some(s)
    requires forall t :: t !in Resident(f) ==> Get(after, t) == Get(c1, t)
    requires forall t :: t in Resident(f) ==>
      Get(after, t) == "" || Get(after, t) == name || (KeptSlot(f).None? && Get(after, t) == Get(c1, t))
    ensures forall s :: Get(after, s) != "" ==> Get(after, s) == name && s in Resident(f)
    ensures AtMostOneLive(after)
  {
  }

  /** Every reader tries decoders in its chain's order, and, for a request
      without an image, its image comes from the last decoder it called. */
  lemma {:induction false} CallsFollowChain(f: Format, c: Caches, st: LoadState, name: string, frame: int, env: Env)
    ensures st.image.None? ==> FollowsChain(Dispatch(f, c, st, name, frame, env), Chain(f, env.settings))
  {
    if st.image.None? {
      var s := Dispatch(f, c, st, name, frame, env);
      var chain := Chain(f, env.settings);
      match f
      case JPEG => JpegFollowsChain(c, st, name, frame, env);
      case WindowsBMP => BmpFollowsChain(c, st, name, frame, env);
      case PNG => PngFollowsChain(c, st, name, env);
      case AVIF => AvifFollowsChain(c, st, name, env);
      case PSD => PrefixIsSubseq(s.calls, chain);
      case CameraRAW => RawFollowsChain(c, st, env);
      case WEBP => PrefixIsSubseq(s.calls, chain);
      case JXL => PrefixIsSubseq(s.calls, chain);
      case HEIF => PrefixIsSubseq(s.calls, chain);
      case QOI => PrefixIsSubseq(s.calls, chain);
      case TGA => PrefixIsSubseq(s.calls, chain);
      case WIC => PrefixIsSubseq(s.calls, chain);
      case DDS => PrefixIsSubseq(s.calls, chain);
      case GIF => PrefixIsSubseq(s.calls, chain);
      case TIFF => PrefixIsSubseq(s.calls, chain);
      case Unknown => PrefixIsSubseq(s.calls, chain);
    }
  }

  lemma {:induction false} GdiFileFollowsChain(c: Caches, st: LoadState, name: string, frame: int, env: Env)
    requires st.image.None?
    ensures var s := ReadGdiFile(c, st, name, frame, env);
      s.state.image.Some? ==> s.state.image.value == Image(GdiFile)
  {
  }

  lemma {:induction false} JpegFollowsChain(c: Caches, st: LoadState, name: string, frame: int, env: Env)
    requires st.image.None?
    ensures FollowsChain(ReadJpeg(c, st, name, frame, env), Chain(JPEG, env.settings))
  {
    var s := ReadJpeg(c, st, name, frame, env);
    var tail := [TurboJpeg, GdiFile];
    if env.settings.preferGdiPlus {
      var chain := [GdiStream] + tail;
      if s.calls == [TurboJpeg] || s.calls == tail {
        PrefixIsSubseq(s.calls, tail);
        SkipFront(s.calls, [GdiStream], tail);
      } else {
        PrefixIsSubseq(s.calls, chain);
      }
      assert Chain(JPEG, env.settings) == chain;
    } else {
      PrefixIsSubseq(s.calls, tail);
    }
  }

  lemma {:induction false} BmpFollowsChain(c: Caches, st: LoadState, name: string, frame: int, env: Env)
    requires st.image.None?
    ensures FollowsChain(ReadBmp(c, st, name, frame, env), Chain(WindowsBMP, env.settings))
  {
    var s := ReadBmp(c, st, name, frame, env);
    if env.decode(BmpReader) == Declined {
      GdiFileFollowsChain(c, Raise(st, BmpReader, Declined), name, frame, env);
    }
    PrefixIsSubseq(s.calls, Chain(WindowsBMP, env.settings));
  }

  lemma {:induction false} PngFollowsChain(c: Caches, st: LoadState, name: string, env: Env)
    requires st.image.None?
    ensures FollowsChain(ReadPng(c, st, name, env), Chain(PNG, env.settings))
  {
    var s := ReadPng(c, st, name, env);
    var chain := Chain(PNG, env.settings);
    if s.calls == [GdiStream] {
      PrefixIsSubseq(s.calls, chain[1..]);
      assert Subseq(s.calls, chain);
    } else {
      PrefixIsSubseq(s.calls, chain);
    }
  }

  lemma {:induction false} AvifFollowsChain(c: Caches, st: LoadState, name: string, env: Env)
    requires st.image.None?
    ensures FollowsChain(ReadAvif(c, st, name, env), Chain(AVIF, env.settings))
  {
    PrefixIsSubseq(ReadAvif(c, st, name, env).calls, Chain(AVIF, env.settings));
  }

  lemma {:induction false} RawFollowsChain(c: Caches, st: LoadState, env: Env)
    requires st.image.None?
    ensures FollowsChain(ReadRaw(c, st, env), Chain(CameraRAW, env.settings))
  {
    var mode := env.settings.displayFullSizeRaw;
    var inner := RawInnerAttempts(mode);
    var run := TryInOrder(inner, env, false);
    var s := ReadRaw(c, st, env);
    RawOrderSplits(mode);
    PrefixIsSubseq(run.calls, inner);
    if run.image.None? && RawTriesDcrawLast(mode) {
      PrefixIsSubseq([Dcraw], [Dcraw]);
      AppendSubseq(run.calls, [Dcraw], inner, [Dcraw]);
    } else {
      SkipFrontBack(run.calls, inner, if RawTriesDcrawLast(mode) then [Dcraw] else []);
    }
  }

  /** A subsequence of `x` is one of `x + y`. */
  lemma {:induction false} SkipFrontBack(a: seq<Decoder>, x: seq<Decoder>, y: seq<Decoder>)
    requires Subseq(a, x)
    ensures Subseq(a, x + y)
  {
    assert Subseq([], y);
    AppendSubseq(a, [], x, y);
    assert a + [] == a;
  }
}
